=== FILE: README.md ===
# SafeDrive backend core, modelled in Dafny

SafeDrive is a driving-safety backend. Drivers record trips, and each trip carries a list of driving events: hard brakes, rapid accelerations, speeding, phone usage and sharp turns. A trip is scored from its events, and the score and the distance earn points. Points are spent on rewards. Drivers can also raise emergencies, to which responders are dispatched.

This project models the part of the backend that holds logic:

- **Trip scorer** (`Scoring`). The score starts at 100. Each event subtracts its type's weight times severity/5. The result is rounded, and it is never below 0. The points earned are `floor(score/100 × distance/10)`.
- **Points ledger** (`Trips.CalculateTripScore`, `Rewards.RedeemReward`, `Ledger`). Scoring credits the caller's balance. Redemption checks, in order, that the reward exists, that it is active and that the balance covers its cost. It then debits the cost and records a pending redemption.
- **Access gates** (`Common.OwnerOrAdmin`, `Common.SelfOrAdmin`). Every single-trip handler answers 404 for a missing trip before it answers 401 for a caller who neither owns the trip nor is an admin. The per-user listings answer 403 unless the caller is the target user or an admin.
- **List mutations.** Emergency contacts are pushed and pulled by id. Responding to an emergency appends one responder and resets the status to 'active'.
- **Schemas** (`TripModel`, `RewardModel`, `RedemptionModel`, `EmergencyModel`). These give the enums, ranges, required fields and defaults of the four document models.

The document store is an in-memory value `Store.Db`. Each handler is a pure function of the store and the request. A handler that writes returns a `Store.Response`: the new store and the reply, which is a document or an `ApiError`. A read-only handler (`GetTrip`, `GetTripEvents`, `GetUser`, `GetUserTrips`, `GetUserRewards`, `GetEmergency`) returns just the reply, a `Result`. Each request is one atomic step. Numbers are exact `real`s. The source uses floating-point Numbers, and the model idealises them. `Math.round(x)` is `Floor(x + 0.5)`.

Points where the code's behaviour is easy to misread:

- The trip schema sets no minimum on distance (Trip.js:41-44), so a negative distance earns negative points. The ledger keeps balances non-negative only while every stored trip's distance is non-negative, and `Ledger.NegativeDistanceOverdraws` exhibits the overdraft.
- `pointsRequired` has no minimum (Reward.js:13-16), so redemption never assumes it is positive.
- A severity is any Number in [1, 5] (Trip.js:70-74), not only a whole number. A severity of 0 is falsy in JavaScript, so the scorer treats it like a missing severity (multiplier 1).
- The redemption code is at most 8 upper-cased base-36 characters after "SD-" (rewards.js:127). It is not of fixed length, and nothing checks that codes are unique.
- The ORM is taken to be Mongoose 5, whose connection options (server.js:20-23) and `document.remove()` (trips.js:122) the code uses. Its `required` check on an array accepts the empty array, and an omitted array defaults to empty, so the validators ask only that a location's `type` be 'Point'.
- The store's 2dsphere indexes ask more than the validators do: the trip indexes on `startLocation.coordinates` and `endLocation.coordinates` (Trip.js:23-27, 34-37), and the emergency index on `location` (Emergency.js:50). An emergency's location needs an indexable position: at least two coordinates, a longitude in [-180, 180] and then a latitude in [-90, 90]; further elements such as an altitude are allowed. A trip's coordinate array may instead be empty, because the index is sparse and skips it. The store refuses an unindexable document after validation, so the request faults and nothing is stored (`Common.IndexablePosition`, `TripModel.TripIndexable`, `EmergencyModel.EmergencyIndexable`).

## Model

| member | source | states |
|---|---|---|
| TripModel.ParseEventType | Safedrive-backend/models/Trip.js:50-54 | an event type is accepted exactly when it is one of the five enum names, and parsing inverts naming |
| TripModel.EventTypeRoundTrip | Safedrive-backend/models/Trip.js:50-54 | a string parses to a type if and only if it is that type's name |
| TripModel.NewTrip | Safedrive-backend/models/Trip.js:4-90 | a trip is created exactly when user, startTime, startLocation and distance are present and the validators pass: a 'Point' start location, end location 'Point' if given, event types from the enum, severities in [1,5], score in [0,100]; every submitted field is stored as given; pointsEarned defaults to 0 and createdAt to the creation time; distance is unconstrained |
| RewardModel.NewReward | Safedrive-backend/models/Reward.js:4-40 | a reward is created exactly when name, description (non-empty), pointsRequired and category are present; pointsRequired may be any number; every submitted field is stored as given; isActive defaults to true and createdAt to the creation time |
| RedemptionModel.NewRedemption | Safedrive-backend/models/Redemption.js:4-30 | a new redemption keeps user, reward and pointsUsed, starts 'pending' and is stamped with the creation time |
| EmergencyModel.ParseResponderType | Safedrive-backend/models/Emergency.js:32-40 | a responder type is accepted exactly when it is police, ambulance, fire, tow or other |
| EmergencyModel.NewEmergency | Safedrive-backend/models/Emergency.js:4-48 | an emergency is created exactly when user, a 'Point' location and a type are present; every submitted field is stored as given; status defaults to 'active' and createdAt to the creation time |
| Store.TripIndex | Safedrive-backend/controllers/trips.js:21 | `findById` finds the first trip with the id, or reports that none has it |
| Store.IncrementPoints | Safedrive-backend/controllers/trips.js:203-205 | `$inc` adds exactly n to the named user's balance, touches no other user, and does nothing for a missing user |
| Scoring.KindWeight | Safedrive-backend/controllers/trips.js:177-186 | the weight of a type lies in [0,15] and is 0 exactly for a type outside the table (the `|| 0` fallback) |
| Scoring.Multiplier | Safedrive-backend/controllers/trips.js:187 | a missing severity multiplies by 1, any non-zero severity by severity/5, and a valid severity gives a multiplier in [0.2,1] |
| Scoring.Round | Safedrive-backend/controllers/trips.js:192 | `Math.round` returns the integer nearest to x, with halves rounded up |
| Scoring.Score | Safedrive-backend/controllers/trips.js:176-192 | the score is the integer nearest to 100 minus the total penalty, and it is never negative |
| Scoring.PointsEarned | Safedrive-backend/controllers/trips.js:195 | the points are the largest integer not above score/100 × distance/10 |
| Scoring.ComputeTripScore | Safedrive-backend/controllers/trips.js:176-195 | the event-by-event subtraction loop computes the same score and points as the closed form |
| Scoring.PenaltyNonNegative | Safedrive-backend/controllers/trips.js:186-188 | an event with a non-negative severity, or none, subtracts a non-negative amount |
| Scoring.TotalPenaltyNonNegative | Safedrive-backend/controllers/trips.js:185-189 | with non-negative severities no event adds to the score |
| Scoring.ScoreAtMost100 | Safedrive-backend/controllers/trips.js:176-192 | with non-negative severities the score lies in [0,100] |
| Scoring.ValidEventsScoreInRange | Safedrive-backend/models/Trip.js:70-81 | events that pass the schema always score within the schema's score range [0,100] |
| Scoring.NegativeSeverityExceeds100 | Safedrive-backend/controllers/trips.js:185-192 | without the schema's severity minimum the upper bound fails: a hard brake of severity -5 scores 105 |
| Scoring.NoEventsScore | Safedrive-backend/controllers/trips.js:176-195 | with no events the score is 100 and the points are floor(distance/10) |
| Scoring.UnrecognisedEventIgnored | Safedrive-backend/controllers/trips.js:186 | an event whose type is outside the table, and is not a name every object inherits, changes neither the total penalty nor the score |
| Scoring.ValidEventsAvoidInheritedNames | Safedrive-backend/models/Trip.js:50-54 | no event that passes the schema's type enum carries a name inherited from `Object.prototype`, so on stored trips the lookup's fallback is the only case besides the five weights |
| Scoring.MissingSeverityCountsAsFive | Safedrive-backend/controllers/trips.js:187 | a missing severity counts like severity 5, a zero severity like a missing one, and both give the full weight |
| Scoring.EventPenaltyIsWeightedSeverity | Safedrive-backend/controllers/trips.js:177-188 | an event of a known type with non-zero severity adds exactly weight × severity/5 to the total penalty |
| Scoring.ScoreNonIncreasing | Safedrive-backend/controllers/trips.js:185-192 | appending an event with a non-negative severity never raises the score |
| Scoring.TotalPenaltyAppend | Safedrive-backend/controllers/trips.js:185-189 | the total penalty of two event lists joined together is the sum of their totals |
| Scoring.TotalPenaltyPermutation | Safedrive-backend/controllers/trips.js:185-189 | the total penalty depends only on the multiset of events |
| Scoring.ScoreOrderIndependent | Safedrive-backend/controllers/trips.js:185-192 | reordering the events does not change the score |
| Scoring.PointsZero | Safedrive-backend/controllers/trips.js:195 | a zero score or a zero distance earns 0 points |
| Scoring.PointsMonotoneInScore | Safedrive-backend/controllers/trips.js:195 | for a distance of at least 0, the points are at least 0 and do not decrease as the score rises |
| Scoring.PointsMonotoneInDistance | Safedrive-backend/controllers/trips.js:195 | for a score of at least 0, the points do not decrease as the distance grows |
| Scoring.PointsAtMostDistanceTenth | Safedrive-backend/controllers/trips.js:195 | a score of at most 100 earns at most floor(distance/10) points |
| Scoring.ScoreExamples | Safedrive-backend/controllers/trips.js:176-195 | worked cases: a clean 10-unit trip earns 1 point; one hard brake gives 95; phone use plus speeding gives 75 and 7 points over 100 units; a severity-1 sharp turn gives 99; speeding without severity gives 90 |
| Trips.Locate | Safedrive-backend/controllers/trips.js:23-34 | 404 exactly when no trip has the id; otherwise the first such trip, and 401 exactly when the caller neither owns that trip nor is admin |
| Trips.AdminNeverUnauthorized | Safedrive-backend/controllers/trips.js:30 | an admin is never refused with 401 |
| Trips.OwnerPasses | Safedrive-backend/controllers/trips.js:30 | the owner of the trip passes the gate |
| Trips.GetTrip | Safedrive-backend/controllers/trips.js:20-40 | the reply is the gate's error, or the first trip with that id, owned by the caller unless the caller is admin |
| Trips.GetTripEvents | Safedrive-backend/controllers/trips.js:133-154 | behind the gate, the reply holds the trip's events, with count equal to their number |
| Trips.ApplyTripUpdate | Safedrive-backend/controllers/trips.js:83-86 | for each of the eleven settable fields, createdAt included, a present value replaces the stored one and an absent one keeps it; the id never changes, and an empty update changes nothing |
| Trips.UpdateTrip | Safedrive-backend/controllers/trips.js:67-101 | behind the gate, the updated trip replaces the stored one exactly when it passes the validators and the location indexes; a trip failing the validators gets 400, one failing only the indexes faults, and either way the store is unchanged |
| Trips.DeleteTrip | Safedrive-backend/controllers/trips.js:106-128 | behind the gate, exactly that trip leaves the collection, the other trips keep their order, every other collection is unchanged, and with unique ids no trip with the id remains |
| Trips.CreateTrip | Safedrive-backend/controllers/trips.js:45-62 | the new trip is the schema's document for the body with the caller as owner: every submitted field is kept, the defaults apply, it is valid and indexable and it is appended; a body the validators refuse gets 400, a valid one the location indexes refuse faults, and neither changes the store |
| Trips.CreateTripIgnoresBodyUser | Safedrive-backend/controllers/trips.js:47 | the body's user field never affects creation |
| Trips.Scored | Safedrive-backend/controllers/trips.js:198-199 | scoring replaces the trip's score and pointsEarned and changes nothing else |
| Trips.CalculateTripScore | Safedrive-backend/controllers/trips.js:159-216 | behind the gate, the only refusal is 400 from the validators; otherwise it reports and stores score and points, credits exactly pointsEarned to the caller (not the owner), and leaves other users, other trips, rewards, redemptions and emergencies unchanged |
| Trips.ScoringValidTripSucceeds | Safedrive-backend/controllers/trips.js:198-200 | scoring a valid stored trip is never refused by the validators, and the store stays valid |
| Trips.ScoringTwiceCreditsTwice | Safedrive-backend/controllers/trips.js:198-205 | scoring again gives the same reply and credits the caller a second time |
| Trips.CalculateTripScoreAsWritten | Safedrive-backend/controllers/trips.js:198-205 | as written, the request always fails and no balance changes |
| Trips.ScoringAsWrittenNeverCredits | Safedrive-backend/controllers/trips.js:198-205 | whenever the intended handler credits points, the handler as written stores the same trips but faults and credits nothing |
| Rewards.RedemptionCode | Safedrive-backend/controllers/rewards.js:127 | the code is "SD-" followed by at most 8 characters; they are upper-case base-36 when the random text is base-36 |
| Rewards.RedeemReward | Safedrive-backend/controllers/rewards.js:98-147 | errors come in order: 404 missing, then 400 inactive, then a fault when the caller has no user record, then 400 short of points; success exactly when all pass; on success one pending record {the given id, caller, reward, pointsUsed = cost} is added, the reply names the reward and its name, the balance drops by the cost and stays at least 0, and remainingPoints equals the new balance; on failure nothing changes |
| Rewards.RedeemPreservesNonNegativeBalances | Safedrive-backend/controllers/rewards.js:116-132 | redemption never makes a balance negative, whatever the cost |
| Rewards.RedemptionRecordIffDebit | Safedrive-backend/controllers/rewards.js:102-132 | a record is added exactly when the balance is debited |
| Rewards.RedeemIgnoresExpiry | Safedrive-backend/controllers/rewards.js:108-120 | the reward's expiry date has no effect on redemption |
| Rewards.RedeemBoundaryExamples | Safedrive-backend/controllers/rewards.js:116-132 | a balance of 300 redeems a 300-point reward and leaves 0; a balance of 299 is refused and nothing changes |
| Users.GetUser | Safedrive-backend/controllers/users.js:15-28 | a missing id gives 404; otherwise the stored user |
| Users.WithoutContact | Safedrive-backend/controllers/users.js:91 | every contact with the id is removed, no other contact is, and an unknown id leaves the list unchanged |
| Users.WithoutContactAppend | Safedrive-backend/controllers/users.js:91 | removal works piecewise on a split list, so the contacts kept stay in their order |
| Users.AddThenRemoveRestores | Safedrive-backend/controllers/users.js:73-98 | adding a contact with a fresh id and then removing that id restores the list |
| Users.AddEmergencyContact | Safedrive-backend/controllers/users.js:72-83 | the contact becomes the last one, the earlier ones are unchanged and in order, and the list grows by one; a missing user faults |
| Users.RemoveEmergencyContact | Safedrive-backend/controllers/users.js:88-99 | the reply and the stored list are the contacts with another id, in their original order, and an unknown id gives back the list unchanged |
| Users.AddThenRemoveContactHandlers | Safedrive-backend/controllers/users.js:72-99 | through the two handlers, adding and then removing a fresh contact restores the store |
| Users.TripsOf | Safedrive-backend/controllers/users.js:111 | the selected trips are the user's trips, with the same multiplicities |
| Users.TripsOfAppend | Safedrive-backend/controllers/users.js:111 | the selection works piecewise on a split collection, so the trips keep collection order |
| Users.GetUserTrips | Safedrive-backend/controllers/users.js:104-118 | 403 unless self or admin; otherwise exactly the target's trips, each as often as stored and in collection order, with count equal to their number |
| Users.GetUserTripsAsWritten | Safedrive-backend/controllers/users.js:104-118 | as written, the handler never succeeds and answers 403 exactly when the gate refuses |
| Users.UserTripsAsWrittenFaults | Safedrive-backend/controllers/users.js:111 | every authorised request faults as written, although the intended listing succeeds |
| Users.InsertNewestFirst | Safedrive-backend/controllers/users.js:132 | inserting into a newest-first list keeps it newest-first and adds exactly that element |
| Users.SortNewestFirst | Safedrive-backend/controllers/users.js:132 | the sorted list is a permutation of its input with redeemedAt non-increasing |
| Users.RedemptionsOf | Safedrive-backend/controllers/users.js:130 | the selected redemptions are the user's redemptions, with the same multiplicities |
| Users.GetUserRewards | Safedrive-backend/controllers/users.js:123-139 | 403 unless self or admin; otherwise exactly the target's redemptions, newest first, with count equal to their number |
| Users.GetUserRewardsAsWritten | Safedrive-backend/controllers/users.js:123-139 | as written, the handler never succeeds and answers 403 exactly when the gate refuses |
| Users.UserRewardsAsWrittenFaults | Safedrive-backend/controllers/users.js:130 | every authorised request faults as written, although the intended listing succeeds |
| Emergencies.GetEmergency | Safedrive-backend/controllers/emergencies.js:16-36 | 404 when missing, then 401 unless owner or admin, otherwise the stored emergency |
| Emergencies.CreateEmergency | Safedrive-backend/controllers/emergencies.js:41-70 | the emergency is the schema's document for the body with the caller as owner: every submitted field is kept, the status defaults to 'active', it is stored, and each of the caller's contacts is notified by name; a body the validators refuse gets 400; a location the index refuses faults with the store unchanged; a caller without a user record faults, and the store then differs from before only by the new emergency |
| Emergencies.CreateEmergencyIgnoresBodyUser | Safedrive-backend/controllers/emergencies.js:43 | the body's user field never affects creation |
| Emergencies.ApplyEmergencyUpdate | Safedrive-backend/controllers/emergencies.js:84-87 | for each of the seven settable fields, createdAt included, a present value replaces the stored one and an absent one keeps it; the id never changes, and an empty update changes nothing |
| Emergencies.UpdateEmergency | Safedrive-backend/controllers/emergencies.js:75-93 | 404 when missing; otherwise the updated emergency is stored exactly when it is valid and its location indexable; an invalid one gets 400, a valid one the index refuses faults, and either way the store is unchanged; no caller is consulted |
| Emergencies.DeleteEmergency | Safedrive-backend/controllers/emergencies.js:98-113 | 404 when missing; otherwise that emergency is removed and every other document in every collection is unchanged; no caller is consulted |
| Emergencies.RequestedResponder | Safedrive-backend/controllers/emergencies.js:129-132 | the new responder is 'dispatched' with the requested type; a type outside the enum is refused |
| Emergencies.RespondToEmergency | Safedrive-backend/controllers/emergencies.js:118-147 | 404 when missing, and otherwise the only refusal is 400; the save succeeds exactly when the responder type is in the enum and the stored emergency passes the schema; then status becomes 'active' whatever it was, exactly one responder is appended after the earlier ones, and nothing else changes; a refused save changes nothing |
| Emergencies.RespondTwiceAppendsInOrder | Safedrive-backend/controllers/emergencies.js:128-134 | on a stored emergency that passes the schema, two dispatches append their responders in request order |
| Ledger.PointsNonNegative | Safedrive-backend/controllers/trips.js:195 | a trip with distance at least 0 never earns negative points |
| Ledger.ScoringPreservesLedger | Safedrive-backend/controllers/trips.js:198-205 | scoring keeps balances at least 0 and distances at least 0 |
| Ledger.BalancesStayNonNegative | Safedrive-backend/controllers/rewards.js:116-132 | over any sequence of scorings and redemptions, balances that start at least 0 stay at least 0, given distances of at least 0 |
| Ledger.NegativeDistanceOverdraws | Safedrive-backend/models/Trip.js:41-44 | with no minimum on distance, scoring a trip of distance -10 takes a balance of 0 to -1 |

## Findings

| source | as written | input that shows it | evidently intended | confidence | as-written member | corrected member |
|---|---|---|---|---|---|---|
| Safedrive-backend/controllers/trips.js:203-205 | `User` is used but never imported, so the balance update throws after the trip is saved | any scoring request that passes the gate | the caller's balance is credited with pointsEarned and the score is returned | high, not executed | Trips.CalculateTripScoreAsWritten (with Trips.ScoringAsWrittenNeverCredits) | Trips.CalculateTripScore |
| Safedrive-backend/controllers/users.js:111 | `Trip` is used but never imported, so the listing throws | self request `GET /users/:id/trips` | the target's trips are listed | high, not executed | Users.GetUserTripsAsWritten (with Users.UserTripsAsWrittenFaults) | Users.GetUserTrips |
| Safedrive-backend/controllers/users.js:130 | `Redemption` is used but never imported, so the listing throws | self request `GET /users/:id/rewards` | the target's redemptions are listed newest first | high, not executed | Users.GetUserRewardsAsWritten (with Users.UserRewardsAsWrittenFaults) | Users.GetUserRewards |

The rest of the model uses the corrected handlers.

## Left out

- Web-server, ORM and real-time plumbing is not modelled: routing, the `protect`/`authorize`/`advancedResults` middleware, and socket delivery. The route-level role checks are left out too, such as `authorize('admin', 'fleet')` on respond. Notifications appear only as returned payloads.
- `getTrips`, `getRewards`, `getUsers` and `getEmergencies` are left out. `getUsers` and `getEmergencies` only return the listing middleware's result, and `getTrips` and `getRewards` only adjust its query; that middleware is not part of this model.
- `getReward`, `createReward`, `updateReward` and `deleteReward` are left out, and so are `createUser`, `updateUser` and `deleteUser`. They are plain single-document operations with no logic beyond the ORM. Reward creation defaults are still stated by `RewardModel.NewReward`.
- The `trip-completed` notification in `updateTrip` is left out. It tests the document after the update, so it reports nothing the model returns.
- Concurrency is left out: every request is one atomic step. So the lost-update and overdraft races are not modelled, namely the read-check-save in redemption and concurrent `$inc` credits.
- `Math.random` is left out: the redemption code's random text, the fresh document ids and the clock are parameters.
- Floating point is left out: all arithmetic is exact `real`.
- The User model is not part of this model. A user record is reduced to its points balance and its emergency contacts. A contact's fields other than its id and name are assumptions.
- Ids are taken to be well-formed ObjectIds. A malformed id makes `findById` throw a cast error before the 404 branch, and so does a malformed contact id in the `$pull` (trips.js:21, 68, 107, 134, 160; rewards.js:99; emergencies.js:17, 76, 99, 119; users.js:91); that error path is not modelled.
- Trips.CalculateTripScore: does not check the location indexes on save, because it leaves the locations unchanged and a stored trip has already passed the indexes.
- Emergencies.RespondToEmergency: does not check the location index on save, because it leaves the location unchanged and a stored emergency has already passed the index.
- Request bodies are typed values. An enum field holding an unknown string is refused by the ORM's validators. That refusal is modelled for an event's type (`TripModel.ParseEventType`), a location's type (`Common.ValidPoint`) and `responderType`. The other enum fields, such as `emergencyType`, `status` and `category`, are typed, so an unknown string for them cannot be written. Setting a field to null in an update is not modelled.
- The status codes of validation failures (400) and uncaught exceptions (500) belong to the error middleware, which is not part of this model.
- Scoring.ScoreAtMost100: the upper bound is stated under non-negative severities, because a negative severity (refused by the schema) scores above 100.
- Ledger.BalancesStayNonNegative: stated under non-negative trip distances, because the schema allows a negative distance, which debits the caller.
- Field-level `runValidators` on updates is modelled as validating the whole updated document. The two agree when the stored document was valid.
- Scoring.KindWeight: a type named after a property every object inherits, such as "constructor" or "toString", gets weight 0, while the source's lookup returns a non-number and the score becomes NaN. Such names never pass the schema's enum (`Scoring.ValidEventsAvoidInheritedNames`), and saving a NaN score is refused, so the handlers' outcomes agree.
- Scoring.UnrecognisedEventIgnored: stated only for names that are not inherited from `Object.prototype`, for the reason above.
- `.populate('reward')` in the per-user rewards listing (users.js:131) is not modelled: the reply carries each redemption's reward id, not the reward document.
- The real-time handle is assumed present. The controllers emit through `req.io`, but the server only calls `app.set('io', io)` (server.js:63), so as written each emitting handler would throw after its writes. The model treats every emit as succeeding.
- The emergency controller requires `../models/emergency` (emergencies.js:1), while the model file is `Emergency.js`. On a case-sensitive file system that load fails; the model assumes it succeeds.
- A request body's `_id` is not modelled. A new document's id is always the fresh id the store assigns, and an update never changes an id.

=== FILE: common.dfy ===
/**
 * Identities, callers, locations and the error replies shared by every
 * controller of the backend.
 */
module Common {
  import opened Wrappers

  /** A document id (an ObjectId compared through its string form). */
  type Id = string

  /** A point in time, in milliseconds since the epoch. */
  type Time = int

  /** The authenticated caller: `req.user.id` and `req.user.role`. */
  datatype Caller = Caller(id: Id, role: string)

  predicate IsAdmin(c: Caller) {
    c.role == "admin"
  }

  /**
   * The gate repeated by every single-trip and single-emergency handler:
   * the caller owns the document or is an administrator.
   */
  predicate OwnerOrAdmin(owner: Id, c: Caller) {
    owner == c.id || IsAdmin(c)
  }

  /** The gate of the per-user listings: the caller is the target user or an administrator. */
  predicate SelfOrAdmin(target: Id, c: Caller) {
    target == c.id || IsAdmin(c)
  }

  /** A GeoJSON location sub-document: `type`, `coordinates` and an optional address. */
  datatype GeoPoint = GeoPoint(kind: string, coordinates: seq<real>, address: Option<string>)

  /**
   * A required location: its `type` must be 'Point'. Its `coordinates`
   * array is required too, but the ORM's required check on an array
   * accepts any array, the empty one included, and an omitted array
   * defaults to empty, so it constrains nothing here.
   */
  predicate ValidPoint(p: GeoPoint) {
    p.kind == "Point"
  }

  /**
   * A position the store's 2dsphere index accepts: a longitude in
   * [-180, 180] followed by a latitude in [-90, 90]; further elements (an
   * altitude) are allowed.
   */
  predicate IndexablePosition(c: seq<real>) {
    |c| >= 2 && -180.0 <= c[0] <= 180.0 && -90.0 <= c[1] <= 90.0
  }

  /**
   * A coordinate array carrying a 2dsphere index of its own: the index is
   * sparse, so an empty array is skipped; any other array must be an
   * indexable position.
   */
  predicate IndexableCoordinates(c: seq<real>) {
    |c| == 0 || IndexablePosition(c)
  }

  /** An optional location: when present its `type` must be 'Point'; nothing else is required. */
  predicate ValidOptionalPoint(p: Option<GeoPoint>) {
    p.Some? ==> p.value.kind == "Point"
  }

  /** The ORM's `required` check on a string: present and non-empty. */
  predicate PresentString(s: Option<string>) {
    s.Some? && |s.value| > 0
  }

  /** `$set` on a required field: a value in the update replaces the stored one, no value keeps it. */
  predicate Sets<T(==)>(v: Option<T>, before: T, after: T) {
    if v.Some? then after == v.value else after == before
  }

  /** `$set` on an optional field: a value in the update replaces the stored one, no value keeps it. */
  predicate SetsOptional<T(==)>(v: Option<T>, before: Option<T>, after: Option<T>) {
    if v.Some? then after == v else after == before
  }

  /** The error replies of the controllers. */
  datatype ApiError =
    | NotFound            // ErrorResponse(..., 404)
    | Unauthorized        // ErrorResponse(..., 401): not the owner and not an admin
    | Forbidden           // ErrorResponse(..., 403): not the target user and not an admin
    | RewardUnavailable   // ErrorResponse(..., 400): the reward is not active
    | InsufficientPoints  // ErrorResponse(..., 400): balance below the reward's cost
    | ValidationFailed    // the ORM's validators refused the document
    | ServerFault         // an exception the handler does not catch
}

=== FILE: emergencies.dfy ===
/**
 * The emergency controller: the owner-or-admin read, creation by the
 * caller, update and deletion without an ownership check, and the
 * dispatch of responders.
 */
module Emergencies {
  import opened Wrappers
  import opened Common
  import opened EmergencyModel
  import opened Store

  /** `GET /emergencies/:id`: 404 when missing, then 401 unless the caller owns it or is an administrator. */
  function GetEmergency(db: Db, caller: Caller, id: Id): (r: Result<Emergency, ApiError>)
    ensures r == Err(NotFound) <==> id !in db.emergencies
    ensures r == Err(Unauthorized) <==> id in db.emergencies && !OwnerOrAdmin(db.emergencies[id].user, caller)
    ensures r.Ok? <==> id in db.emergencies && OwnerOrAdmin(db.emergencies[id].user, caller)
    ensures r.Ok? ==> r.value == db.emergencies[id]
  {
    if id !in db.emergencies then Err(NotFound)
    else if !OwnerOrAdmin(db.emergencies[id].user, caller) then Err(Unauthorized)
    else Ok(db.emergencies[id])
  }

  /** The `new-emergency` alert for responders, and the names of the caller's contacts notified. */
  datatype Created = Created(emergency: Emergency, alertUser: Id, notifiedContacts: seq<string>)

  /**
   * `POST /emergencies`: the owner is always the caller, whatever the body
   * says; the schema's defaults and validators apply, and then the store's
   * location index, whose refusal is a fault. The emergency is stored
   * before the caller's contacts are read, so a caller without a user
   * record gets a fault while the emergency stays stored. `newId` is the
   * fresh id the store assigns.
   */
  function CreateEmergency(db: Db, caller: Caller, d: EmergencyDraft, newId: Id, now: Time): (r: Response<Created>)
    ensures r.reply.Err? && r.reply.error != ServerFault ==> r == Response(db, Err(ValidationFailed))
    ensures r.reply.Ok? <==>
      && caller.id in db.users && d.location.Some? && ValidPoint(d.location.value) && d.emergencyType.Some?
      && IndexablePosition(d.location.value.coordinates)
    ensures r.reply.Ok? ==>
      var e := r.reply.value.emergency;
      && e.user == caller.id
      && e.id == newId
      && NewEmergency(newId, d.(user := Some(caller.id)), now) == Ok(e)
      && e.location == d.location.value
      && e.emergencyType == d.emergencyType.value
      && e.status == (if d.status.Some? then d.status.value else Active)
      && e.responders == d.responders
      && e.resolvedAt == d.resolvedAt
      && e.createdAt == (if d.createdAt.Some? then d.createdAt.value else now)
      && EmergencyIndexable(e)
      && r.db == db.(emergencies := db.emergencies[newId := e])
      && r.reply.value.alertUser == caller.id
      && |r.reply.value.notifiedContacts| == |db.users[caller.id].contacts|
      && (forall k :: 0 <= k < |db.users[caller.id].contacts| ==>
            r.reply.value.notifiedContacts[k] == db.users[caller.id].contacts[k].name)
    ensures r.reply == Err(ServerFault) ==>
      && NewEmergency(newId, d.(user := Some(caller.id)), now).Ok?
      && var e := NewEmergency(newId, d.(user := Some(caller.id)), now).value;
         if EmergencyIndexable(e) then
           && caller.id !in db.users
           && r.db == db.(emergencies := db.emergencies[newId := e])
           && r.db.emergencies[newId].user == caller.id
         else r.db == db
  {
    match NewEmergency(newId, d.(user := Some(caller.id)), now)
    case Err(e) => Response(db, Err(e))
    case Ok(e) =>
      if !EmergencyIndexable(e) then Response(db, Err(ServerFault))
      else
        var db' := db.(emergencies := db.emergencies[newId := e]);
        if caller.id !in db.users then Response(db', Err(ServerFault))
        else
          var cs := db.users[caller.id].contacts;
          Response(db', Ok(Created(e, caller.id, seq(|cs|, k requires 0 <= k < |cs| => cs[k].name))))
  }

  /** The user field of the body never matters to emergency creation. */
  lemma CreateEmergencyIgnoresBodyUser(db: Db, caller: Caller, d: EmergencyDraft, other: Option<Id>, newId: Id, now: Time)
    ensures CreateEmergency(db, caller, d.(user := other), newId, now) == CreateEmergency(db, caller, d, newId, now)
  {
    assert d.(user := other).(user := Some(caller.id)) == d.(user := Some(caller.id));
  }

  /** The fields an emergency update may set (`$set` semantics). */
  datatype EmergencyUpdate = EmergencyUpdate(
    user: Option<Id>,
    location: Option<GeoPoint>,
    emergencyType: Option<EmergencyType>,
    status: Option<EmergencyStatus>,
    responders: Option<seq<Responder>>,
    resolvedAt: Option<Time>,
    createdAt: Option<Time>)

  /** The update that sets nothing. */
  const NoEmergencyUpdate := EmergencyUpdate(None, None, None, None, None, None, None)

  /** `$set` of the fields present in the update onto the stored emergency. */
  function ApplyEmergencyUpdate(e: Emergency, u: EmergencyUpdate): (e': Emergency)
    ensures e'.id == e.id
    ensures u == NoEmergencyUpdate ==> e' == e
    ensures Sets(u.user, e.user, e'.user)
    ensures Sets(u.location, e.location, e'.location)
    ensures Sets(u.emergencyType, e.emergencyType, e'.emergencyType)
    ensures Sets(u.status, e.status, e'.status)
    ensures Sets(u.responders, e.responders, e'.responders)
    ensures SetsOptional(u.resolvedAt, e.resolvedAt, e'.resolvedAt)
    ensures Sets(u.createdAt, e.createdAt, e'.createdAt)
  {
    e.(user := u.user.GetOr(e.user),
       location := u.location.GetOr(e.location),
       emergencyType := u.emergencyType.GetOr(e.emergencyType),
       status := u.status.GetOr(e.status),
       responders := u.responders.GetOr(e.responders),
       resolvedAt := if u.resolvedAt.Some? then u.resolvedAt else e.resolvedAt,
       createdAt := u.createdAt.GetOr(e.createdAt))
  }

  /**
   * `PUT /emergencies/:id`: 404 when missing; otherwise the update is
   * applied with the validators on, and then the store's location index,
   * whose refusal is a fault. The handler takes no caller: it checks no
   * ownership.
   */
  function UpdateEmergency(db: Db, id: Id, u: EmergencyUpdate): (r: Response<Emergency>)
    ensures id !in db.emergencies ==> r == Response(db, Err(NotFound))
    ensures r.reply.Err? ==> r.db == db
    ensures id in db.emergencies ==>
      var e' := ApplyEmergencyUpdate(db.emergencies[id], u);
      && (r.reply.Ok? <==> ValidEmergency(e') && EmergencyIndexable(e'))
      && (r.reply == Err(ValidationFailed) <==> !ValidEmergency(e'))
      && (r.reply == Err(ServerFault) <==> ValidEmergency(e') && !EmergencyIndexable(e'))
    ensures r.reply.Ok? ==>
      && r.reply.value == ApplyEmergencyUpdate(db.emergencies[id], u)
      && EmergencyIndexable(r.reply.value)
      && r.db == db.(emergencies := db.emergencies[id := r.reply.value])
  {
    if id !in db.emergencies then Response(db, Err(NotFound))
    else
      var e' := ApplyEmergencyUpdate(db.emergencies[id], u);
      if !ValidEmergency(e') then Response(db, Err(ValidationFailed))
      else if !EmergencyIndexable(e') then Response(db, Err(ServerFault))
      else Response(db.(emergencies := db.emergencies[id := e']), Ok(e'))
  }

  /** `DELETE /emergencies/:id`: 404 when missing; otherwise removed. No ownership is checked. */
  function DeleteEmergency(db: Db, id: Id): (r: Response<()>)
    ensures r.reply.Ok? <==> id in db.emergencies
    ensures r.reply.Err? ==> r == Response(db, Err(NotFound))
    ensures r.reply.Ok? ==> r.db.emergencies.Keys == db.emergencies.Keys - {id}
    ensures r.reply.Ok? ==> forall k :: k in r.db.emergencies ==> r.db.emergencies[k] == db.emergencies[k]
    ensures r.reply.Ok? ==> r.db == db.(emergencies := db.emergencies - {id})
  {
    if id !in db.emergencies then Response(db, Err(NotFound))
    else Response(db.(emergencies := db.emergencies - {id}), Ok(()))
  }

  /** The responder entry for a requested type: no type when none is given, `None` for a type outside the enum. */
  function RequestedResponder(responderType: Option<string>): (r: Option<Responder>)
    ensures r.None? <==> responderType.Some? && ParseResponderType(responderType.value).None?
    ensures r.Some? ==> r.value.status == Some("dispatched")
    ensures r.Some? && responderType.Some? ==> r.value.kind.Some? && ResponderTypeName(r.value.kind.value) == responderType.value
    ensures r.Some? && responderType.None? ==> r.value.kind.None?
  {
    if responderType.None? then Some(Responder(None, Some("dispatched")))
    else
      match ParseResponderType(responderType.value)
      case Some(t) => Some(Responder(Some(t), Some("dispatched")))
      case None => None
  }

  /** The `emergency-response` notification to the owner's room. */
  datatype Dispatched = Dispatched(emergency: Emergency, notifyUser: Id)

  /**
   * `POST /emergencies/:id/respond`: 404 when missing; otherwise the
   * status becomes 'active', whatever it was, and exactly one responder
   * {type: responderType, status: 'dispatched'} is appended. Saving
   * validates the whole document: a type outside the enum, or a stored
   * emergency that fails the schema, is refused and nothing changes.
   */
  function RespondToEmergency(db: Db, id: Id, responderType: Option<string>): (r: Response<Dispatched>)
    ensures id !in db.emergencies ==> r == Response(db, Err(NotFound))
    ensures id in db.emergencies && r.reply.Err? ==> r.reply.error == ValidationFailed
    ensures r.reply.Err? ==> r.db == db
    ensures id in db.emergencies ==>
      (r.reply.Ok? <==> RequestedResponder(responderType).Some? && ValidEmergency(db.emergencies[id]))
    ensures r.reply.Ok? ==>
      var e := db.emergencies[id];
      var e' := r.reply.value.emergency;
      && e'.status == Active
      && |e'.responders| == |e.responders| + 1
      && e'.responders[..|e.responders|] == e.responders
      && e'.responders[|e.responders|] == RequestedResponder(responderType).value
      && e'.(status := e.status, responders := e.responders) == e
      && r.db == db.(emergencies := db.emergencies[id := e'])
      && r.reply.value.notifyUser == e.user
  {
    if id !in db.emergencies then Response(db, Err(NotFound))
    else
      match RequestedResponder(responderType)
      case None => Response(db, Err(ValidationFailed))
      case Some(resp) =>
        var e := db.emergencies[id];
        var e' := e.(status := Active, responders := e.responders + [resp]);
        if !ValidEmergency(e') then Response(db, Err(ValidationFailed))
        else Response(db.(emergencies := db.emergencies[id := e']), Ok(Dispatched(e', e.user)))
  }

  /** Two dispatches in a row append their responders in request order. */
  lemma RespondTwiceAppendsInOrder(db: Db, id: Id, t1: Option<string>, t2: Option<string>)
    requires id in db.emergencies && ValidEmergency(db.emergencies[id])
    requires RequestedResponder(t1).Some? && RequestedResponder(t2).Some?
    ensures
      var r2 := RespondToEmergency(RespondToEmergency(db, id, t1).db, id, t2);
      && r2.reply.Ok?
      && r2.reply.value.emergency.responders
           == db.emergencies[id].responders + [RequestedResponder(t1).value, RequestedResponder(t2).value]
  {
  }
}

=== FILE: emergency_model.dfy ===
/** The Emergency document: an alert raised by a driver and the responders sent to it. */
module EmergencyModel {
  import opened Wrappers
  import opened Common

  datatype EmergencyType = Accident | Medical | Mechanical | OtherEmergency

  datatype EmergencyStatus = Active | Resolved | Cancelled

  datatype ResponderType = Police | Ambulance | Fire | Tow | OtherResponder

  function ResponderTypeName(t: ResponderType): string {
    match t
    case Police => "police"
    case Ambulance => "ambulance"
    case Fire => "fire"
    case Tow => "tow"
    case OtherResponder => "other"
  }

  /** Reads a responder type; `None` for a string outside the enum. */
  function ParseResponderType(s: string): (r: Option<ResponderType>)
    ensures r.Some? ==> ResponderTypeName(r.value) == s
    ensures r.None? ==> forall t: ResponderType :: ResponderTypeName(t) != s
  {
    if s == "police" then Some(Police)
    else if s == "ambulance" then Some(Ambulance)
    else if s == "fire" then Some(Fire)
    else if s == "tow" then Some(Tow)
    else if s == "other" then Some(OtherResponder)
    else None
  }

  /** A responder entry: its type is optional but must come from the enum; its status is a free string. */
  datatype Responder = Responder(kind: Option<ResponderType>, status: Option<string>)

  /**
   * A stored emergency: owner, a required 'Point' location, a required
   * type, a status, the responders in the order they were dispatched, the
   * creation time and an optional resolution time.
   */
  datatype Emergency = Emergency(
    id: Id,
    user: Id,
    location: GeoPoint,
    emergencyType: EmergencyType,
    status: EmergencyStatus,
    responders: seq<Responder>,
    createdAt: Time,
    resolvedAt: Option<Time>)

  predicate ValidEmergency(e: Emergency) {
    ValidPoint(e.location)
  }

  /** What the store's 2dsphere index on the location accepts: an indexable position. */
  predicate EmergencyIndexable(e: Emergency) {
    IndexablePosition(e.location.coordinates)
  }

  /** An emergency as submitted for creation. */
  datatype EmergencyDraft = EmergencyDraft(
    user: Option<Id>,
    location: Option<GeoPoint>,
    emergencyType: Option<EmergencyType>,
    status: Option<EmergencyStatus>,
    responders: seq<Responder>,
    resolvedAt: Option<Time>,
    createdAt: Option<Time>)

  /**
   * Creates an emergency: user, location and type are required; the
   * status defaults to 'active' and `createdAt` to the creation time.
   * Every field the draft carries is stored as given.
   */
  function NewEmergency(id: Id, d: EmergencyDraft, now: Time): (r: Result<Emergency, ApiError>)
    ensures r.Ok? <==>
      d.user.Some? && d.location.Some? && ValidPoint(d.location.value) && d.emergencyType.Some?
    ensures r.Err? ==> r.error == ValidationFailed
    ensures r.Ok? ==>
      && ValidEmergency(r.value)
      && r.value.id == id
      && r.value.user == d.user.value
      && r.value.location == d.location.value
      && r.value.emergencyType == d.emergencyType.value
      && r.value.status == (if d.status.Some? then d.status.value else Active)
      && r.value.responders == d.responders
      && r.value.resolvedAt == d.resolvedAt
      && r.value.createdAt == (if d.createdAt.Some? then d.createdAt.value else now)
  {
    if d.user.Some? && d.location.Some? && ValidPoint(d.location.value) && d.emergencyType.Some? then
      Ok(Emergency(id, d.user.value, d.location.value, d.emergencyType.value,
                   d.status.GetOr(Active), d.responders, d.createdAt.GetOr(now), d.resolvedAt))
    else
      Err(ValidationFailed)
  }
}

=== FILE: ledger.dfy ===
/**
 * The points ledger as a state machine: trip scoring credits the caller,
 * redemption debits them, one request at a time. Balances stay
 * non-negative as long as every stored trip covers a non-negative
 * distance; the trip schema does not enforce that, and a negative
 * distance debits the caller.
 */
module Ledger {
  import opened Wrappers
  import opened Common
  import opened TripModel
  import opened Scoring
  import opened Store
  import Trips
  import Rewards

  /** A request that moves points. */
  datatype Request =
    | ScoreTrip(caller: Caller, tripId: Id)
    | Redeem(caller: Caller, rewardId: Id, randomText: string, redemptionId: Id, now: Time)

  function Step(db: Db, q: Request): Db {
    match q
    case ScoreTrip(c, id) => Trips.CalculateTripScore(db, c, id).db
    case Redeem(c, rid, txt, nid, now) => Rewards.RedeemReward(db, c, rid, txt, nid, now).db
  }

  /** The store after handling the requests one after the other. */
  function Run(db: Db, qs: seq<Request>): Db
    decreases |qs|
  {
    if |qs| == 0 then db else Run(Step(db, qs[0]), qs[1..])
  }

  /** The points a trip earns are never negative when its distance is not. */
  lemma PointsNonNegative(events: seq<DrivingEvent>, distance: real)
    requires distance >= 0.0
    ensures PointsEarned(Score(events), distance) >= 0
  {
    PointsMonotoneInScore(0, Score(events), distance);
  }

  /** Scoring keeps balances non-negative and distances as they were. */
  lemma ScoringPreservesLedger(db: Db, caller: Caller, id: Id)
    requires BalancesNonNegative(db) && DistancesNonNegative(db)
    ensures BalancesNonNegative(Trips.CalculateTripScore(db, caller, id).db)
    ensures DistancesNonNegative(Trips.CalculateTripScore(db, caller, id).db)
  {
    var r := Trips.CalculateTripScore(db, caller, id);
    if r.reply.Ok? {
      var i := Trips.Locate(db, caller, id).value;
      var t := db.trips[i];
      assert t.distance >= 0.0;
      PointsNonNegative(t.events, t.distance);
      assert r.db.trips[i].distance == t.distance;
      forall j | 0 <= j < |r.db.trips|
        ensures r.db.trips[j].distance >= 0.0
      {
        if j != i {
          assert r.db.trips[j] == db.trips[j];
        }
      }
    }
  }

  /** Any sequence of credits and redemptions keeps every balance non-negative. */
  lemma {:induction false} BalancesStayNonNegative(db: Db, qs: seq<Request>)
    requires BalancesNonNegative(db) && DistancesNonNegative(db)
    ensures BalancesNonNegative(Run(db, qs))
    decreases |qs|
  {
    if |qs| > 0 {
      var db' := Step(db, qs[0]);
      match qs[0] {
        case ScoreTrip(c, id) =>
          ScoringPreservesLedger(db, c, id);
        case Redeem(c, rid, txt, nid, now) =>
          Rewards.RedeemPreservesNonNegativeBalances(db, c, rid, txt, nid, now);
      }
      BalancesStayNonNegative(db', qs[1..]);
    }
  }

  /** The schema sets no minimum on distance: scoring a trip of distance -10 takes a balance of 0 to -1. */
  lemma NegativeDistanceOverdraws(u: Id)
    ensures
      var loc := GeoPoint("Point", [0.0, 0.0], None);
      var t := Trip("t", u, 0, None, loc, None, -10.0, None, [], None, 0.0, 0);
      var db := Db(map[u := UserDoc(0.0, [])], [t], map[], [], map[]);
      var r := Trips.CalculateTripScore(db, Caller(u, "user"), "t");
      r.reply.Ok? && r.reply.value.pointsEarned == -1 && r.db.users[u].points == -1.0
  {
    NoEventsScore(-10.0);
  }
}

=== FILE: redemption_model.dfy ===
/** The Redemption document: the record of points exchanged for a reward. */
module RedemptionModel {
  import opened Wrappers
  import opened Common

  datatype RedemptionStatus = Pending | Completed | Cancelled

  /**
   * A stored redemption. `user`, `reward` and `pointsUsed` are required;
   * the code is an optional string.
   */
  datatype Redemption = Redemption(
    id: Id,
    user: Id,
    reward: Id,
    pointsUsed: real,
    status: RedemptionStatus,
    redemptionCode: Option<string>,
    redeemedAt: Time)

  /**
   * Creates a redemption from its required fields: the status takes its
   * default 'pending' and `redeemedAt` the creation time.
   */
  function NewRedemption(id: Id, user: Id, reward: Id, pointsUsed: real, code: Option<string>, now: Time): (r: Redemption)
    ensures r.status == Pending
    ensures r.redeemedAt == now
    ensures r.user == user && r.reward == reward && r.pointsUsed == pointsUsed
    ensures r.redemptionCode == code && r.id == id
  {
    Redemption(id, user, reward, pointsUsed, Pending, code, now)
  }
}

=== FILE: reward_model.dfy ===
/** The Reward document: something a driver can buy with points. */
module RewardModel {
  import opened Wrappers
  import opened Common

  datatype Category = Fuel | Insurance | Retail | Service | OtherCategory

  /**
   * A stored reward. `pointsRequired` is any Number: the schema sets no
   * minimum, so a zero or negative cost is a legal reward. `expiryDate`
   * is stored but never consulted when a reward is redeemed.
   */
  datatype Reward = Reward(
    id: Id,
    name: string,
    description: string,
    pointsRequired: real,
    category: Category,
    partner: Option<Id>,
    image: Option<string>,
    expiryDate: Option<Time>,
    isActive: bool,
    createdAt: Time)

  /** A reward as submitted for creation. */
  datatype RewardDraft = RewardDraft(
    name: Option<string>,
    description: Option<string>,
    pointsRequired: Option<real>,
    category: Option<Category>,
    partner: Option<Id>,
    image: Option<string>,
    expiryDate: Option<Time>,
    isActive: Option<bool>,
    createdAt: Option<Time>)

  /**
   * Creates a reward: name, description, pointsRequired and category are
   * required (a required string must be non-empty); `isActive` defaults
   * to true and `createdAt` to the creation time. Every field the draft
   * carries is stored as given.
   */
  function NewReward(id: Id, d: RewardDraft, now: Time): (r: Result<Reward, ApiError>)
    ensures r.Ok? <==>
      PresentString(d.name) && PresentString(d.description) && d.pointsRequired.Some? && d.category.Some?
    ensures r.Err? ==> r.error == ValidationFailed
    ensures r.Ok? ==>
      && r.value.id == id
      && r.value.name == d.name.value
      && r.value.description == d.description.value
      && r.value.pointsRequired == d.pointsRequired.value
      && r.value.category == d.category.value
      && r.value.partner == d.partner
      && r.value.image == d.image
      && r.value.expiryDate == d.expiryDate
      && r.value.isActive == (d.isActive.None? || d.isActive.value)
      && r.value.createdAt == (if d.createdAt.Some? then d.createdAt.value else now)
  {
    if PresentString(d.name) && PresentString(d.description) && d.pointsRequired.Some? && d.category.Some? then
      Ok(Reward(id, d.name.value, d.description.value, d.pointsRequired.value, d.category.value,
                d.partner, d.image, d.expiryDate, d.isActive.GetOr(true), d.createdAt.GetOr(now)))
    else
      Err(ValidationFailed)
  }
}

=== FILE: rewards.dfy ===
/**
 * Reward redemption: the guarded exchange of a user's points for a
 * reward, producing a pending Redemption record with a shareable code.
 */
module Rewards {
  import opened Wrappers
  import opened Common
  import opened RewardModel
  import opened RedemptionModel
  import opened Store

  /** JavaScript's `s.substr(start, len)`: at most `len` characters of `s` from `start` on. */
  function Substr(s: string, start: nat, len: nat): (r: string)
    ensures |r| == if start >= |s| then 0 else (if len < |s| - start then len else |s| - start)
    ensures forall k :: 0 <= k < |r| ==> r[k] == s[start + k]
  {
    if start >= |s| then []
    else if len < |s| - start then s[start..start + len]
    else s[start..]
  }

  predicate IsLowerBase36Digit(c: char) {
    ('0' <= c <= '9') || ('a' <= c <= 'z')
  }

  predicate IsUpperAlphanumeric(c: char) {
    ('0' <= c <= '9') || ('A' <= c <= 'Z')
  }

  /** `toUpperCase` on one character of the base-36 alphabet (other characters are kept). */
  function UpperChar(c: char): (u: char)
    ensures IsLowerBase36Digit(c) ==> IsUpperAlphanumeric(u)
    ensures !('a' <= c <= 'z') ==> u == c
  {
    if 'a' <= c <= 'z' then (c as int - 32) as char else c
  }

  function ToUpper(s: string): (r: string)
    ensures |r| == |s|
    ensures forall k :: 0 <= k < |s| ==> r[k] == UpperChar(s[k])
  {
    seq(|s|, k requires 0 <= k < |s| => UpperChar(s[k]))
  }

  /**
   * The redemption code: "SD-" and then the upper-cased characters 2..9 of
   * the base-36 rendering of a random number. `randomText` stands for that
   * rendering ("0." followed by base-36 digits); nothing checks that two
   * codes differ.
   */
  function RedemptionCode(randomText: string): (code: string)
    ensures 3 <= |code| <= 11
    ensures code[..3] == "SD-"
    ensures |randomText| >= 10 ==> |code| == 11
    ensures (forall k :: 2 <= k < |randomText| ==> IsLowerBase36Digit(randomText[k])) ==>
              forall k :: 3 <= k < |code| ==> IsUpperAlphanumeric(code[k])
  {
    var fragment := ToUpper(Substr(randomText, 2, 8));
    assert forall k :: 0 <= k < |fragment| ==> fragment[k] == UpperChar(randomText[2 + k]);
    "SD-" + fragment
  }

  /** The `reward-redeemed` notification sent to the caller's room. */
  datatype RedeemNotice = RedeemNotice(
    rewardId: Id,
    rewardName: string,
    pointsUsed: real,
    remainingPoints: real,
    redemptionCode: string)

  /** A successful redemption: the record returned to the caller and the notification. */
  datatype Redeemed = Redeemed(redemption: Redemption, notice: RedeemNotice)

  /**
   * `POST /rewards/:id/redeem`, as one atomic step. Checks in order: the
   * reward exists (404), it is active (400), the caller's balance covers
   * `pointsRequired` (400); a caller without a user record makes the
   * balance read fault. On success a pending Redemption is appended and
   * the balance is debited by `pointsRequired`. `randomText`,
   * `redemptionId` and `now` stand for the random number, the fresh id
   * and the clock.
   */
  function RedeemReward(db: Db, caller: Caller, rewardId: Id, randomText: string, redemptionId: Id, now: Time): (r: Response<Redeemed>)
    ensures rewardId !in db.rewards ==> r == Response(db, Err(NotFound))
    ensures rewardId in db.rewards && !db.rewards[rewardId].isActive ==> r == Response(db, Err(RewardUnavailable))
    ensures rewardId in db.rewards && db.rewards[rewardId].isActive && caller.id in db.users
            && db.users[caller.id].points < db.rewards[rewardId].pointsRequired
            ==> r == Response(db, Err(InsufficientPoints))
    ensures rewardId in db.rewards && db.rewards[rewardId].isActive && caller.id !in db.users
            ==> r == Response(db, Err(ServerFault))
    ensures r.reply.Ok? <==>
      && rewardId in db.rewards
      && db.rewards[rewardId].isActive
      && caller.id in db.users
      && db.users[caller.id].points >= db.rewards[rewardId].pointsRequired
    ensures r.reply.Err? ==> r.db == db
    ensures r.reply.Ok? ==>
      var cost := db.rewards[rewardId].pointsRequired;
      var red := r.reply.value.redemption;
      && red.id == redemptionId
      && red.user == caller.id
      && red.reward == rewardId
      && red.pointsUsed == cost
      && red.status == Pending
      && red.redemptionCode == Some(RedemptionCode(randomText))
      && red.redeemedAt == now
      && r.db.redemptions == db.redemptions + [red]
      && r.db.users.Keys == db.users.Keys
      && r.db.users[caller.id].points == db.users[caller.id].points - cost
      && r.db.users[caller.id].points >= 0.0
      && r.db.users[caller.id].contacts == db.users[caller.id].contacts
      && (forall v :: v in db.users && v != caller.id ==> r.db.users[v] == db.users[v])
      && r.reply.value.notice.remainingPoints == r.db.users[caller.id].points
      && r.reply.value.notice.rewardId == rewardId
      && r.reply.value.notice.rewardName == db.rewards[rewardId].name
      && r.reply.value.notice.pointsUsed == cost
      && r.reply.value.notice.redemptionCode == RedemptionCode(randomText)
      && r.db.trips == db.trips && r.db.rewards == db.rewards && r.db.emergencies == db.emergencies
  {
    if rewardId !in db.rewards then Response(db, Err(NotFound))
    else
      var reward := db.rewards[rewardId];
      if !reward.isActive then Response(db, Err(RewardUnavailable))
      else if caller.id !in db.users then Response(db, Err(ServerFault))
      else
        var user := db.users[caller.id];
        if user.points < reward.pointsRequired then Response(db, Err(InsufficientPoints))
        else
          var code := RedemptionCode(randomText);
          var red := NewRedemption(redemptionId, caller.id, rewardId, reward.pointsRequired, Some(code), now);
          var remaining := user.points - reward.pointsRequired;
          var db' := db.(redemptions := db.redemptions + [red],
                         users := db.users[caller.id := user.(points := remaining)]);
          Response(db', Ok(Redeemed(red, RedeemNotice(rewardId, reward.name, reward.pointsRequired, remaining, code))))
  }

  /** Redemption keeps every balance non-negative, whatever the reward costs. */
  lemma RedeemPreservesNonNegativeBalances(db: Db, caller: Caller, rewardId: Id, randomText: string, redemptionId: Id, now: Time)
    requires BalancesNonNegative(db)
    ensures BalancesNonNegative(RedeemReward(db, caller, rewardId, randomText, redemptionId, now).db)
  {
  }

  /** A record is created exactly when the balance is debited: one record per success, none per failure. */
  lemma RedemptionRecordIffDebit(db: Db, caller: Caller, rewardId: Id, randomText: string, redemptionId: Id, now: Time)
    ensures
      var r := RedeemReward(db, caller, rewardId, randomText, redemptionId, now);
      && (r.reply.Ok? ==> |r.db.redemptions| == |db.redemptions| + 1)
      && (r.reply.Err? ==> r.db.redemptions == db.redemptions && r.db.users == db.users)
  {
  }

  /** The expiry date of a reward plays no part in redeeming it. */
  lemma RedeemIgnoresExpiry(db: Db, caller: Caller, rewardId: Id, expiry: Option<Time>, randomText: string, redemptionId: Id, now: Time)
    requires rewardId in db.rewards
    ensures
      var db2 := db.(rewards := db.rewards[rewardId := db.rewards[rewardId].(expiryDate := expiry)]);
      RedeemReward(db2, caller, rewardId, randomText, redemptionId, now).reply
        == RedeemReward(db, caller, rewardId, randomText, redemptionId, now).reply
  {
    var db2 := db.(rewards := db.rewards[rewardId := db.rewards[rewardId].(expiryDate := expiry)]);
    assert db2.rewards[rewardId].isActive == db.rewards[rewardId].isActive;
    assert db2.rewards[rewardId].pointsRequired == db.rewards[rewardId].pointsRequired;
    assert db2.users == db.users;
  }

  /** A balance equal to the cost succeeds and leaves 0; one point short is refused and changes nothing. */
  lemma RedeemBoundaryExamples(db: Db, caller: Caller, rewardId: Id, randomText: string, redemptionId: Id, now: Time)
    requires rewardId in db.rewards && db.rewards[rewardId].isActive && db.rewards[rewardId].pointsRequired == 300.0
    requires caller.id in db.users
    ensures
      var rich := db.(users := db.users[caller.id := db.users[caller.id].(points := 300.0)]);
      var r := RedeemReward(rich, caller, rewardId, randomText, redemptionId, now);
      r.reply.Ok? && r.db.users[caller.id].points == 0.0 && r.reply.value.notice.remainingPoints == 0.0
    ensures
      var poor := db.(users := db.users[caller.id := db.users[caller.id].(points := 299.0)]);
      RedeemReward(poor, caller, rewardId, randomText, redemptionId, now) == Response(poor, Err(InsufficientPoints))
  {
  }
}

=== FILE: scoring.dfy ===
/**
 * The trip scorer: a safety score in [0, 100] obtained by subtracting a
 * weighted penalty per driving event from 100, and the points a trip earns
 * from its score and distance. Arithmetic is exact (`real`), an
 * idealisation of the floating-point Numbers of the original.
 */
module Scoring {
  import opened Wrappers
  import opened Common
  import opened TripModel

  /** The fixed penalty weight of each recognised event type. */
  function Weight(t: EventType): real {
    match t
    case HardBrake => 5.0
    case RapidAcceleration => 5.0
    case Speeding => 10.0
    case PhoneUsage => 15.0
    case SharpTurn => 7.0
  }

  /**
   * The names a plain object literal inherits from `Object.prototype`.
   * Looking one of them up in the penalty table yields a function (or the
   * prototype itself), not a number, so the source's score becomes NaN.
   */
  predicate InheritedName(kind: string) {
    kind in {"constructor", "__proto__", "toString", "toLocaleString", "valueOf",
             "hasOwnProperty", "isPrototypeOf", "propertyIsEnumerable",
             "__defineGetter__", "__defineSetter__", "__lookupGetter__", "__lookupSetter__"}
  }

  /**
   * The weight looked up by the stored type name; a name outside the table
   * weighs 0 (the `|| 0` fallback). Names in `InheritedName` are given 0
   * too, which departs from the source; no schema-valid event carries one.
   */
  function KindWeight(kind: string): (w: real)
    ensures 0.0 <= w <= 15.0
    ensures ParseEventType(kind).None? <==> w == 0.0
  {
    match ParseEventType(kind)
    case Some(t) => Weight(t)
    case None => 0.0
  }

  /**
   * The severity multiplier. A severity that is absent, or present but
   * zero (both falsy), multiplies by 1; any other severity by severity/5.
   */
  function Multiplier(severity: Option<real>): (m: real)
    ensures SeverityInRange(severity) ==> 0.2 <= m <= 1.0
    ensures severity.None? ==> m == 1.0
    ensures severity.Some? && severity.value != 0.0 ==> m * 5.0 == severity.value
  {
    if severity.None? || severity.value == 0.0 then 1.0 else severity.value / 5.0
  }

  /** What one event subtracts from the score. */
  function Penalty(e: DrivingEvent): real {
    KindWeight(e.kind) * Multiplier(e.severity)
  }

  /** The sum of the penalties of a sequence of events. */
  function TotalPenalty(es: seq<DrivingEvent>): real {
    if |es| == 0 then 0.0 else TotalPenalty(es[..|es| - 1]) + Penalty(es[|es| - 1])
  }

  /** `Math.round`: the nearest integer, halves rounded up. */
  function Round(x: real): (r: int)
    ensures (r as real) - 0.5 <= x < (r as real) + 0.5
  {
    (x + 0.5).Floor
  }

  /** The safety score: 100 minus the total penalty, rounded, and never below 0. */
  function Score(es: seq<DrivingEvent>): (s: int)
    ensures s >= 0
    ensures 100.0 - TotalPenalty(es) >= -0.5 ==>
      (s as real) - 0.5 <= 100.0 - TotalPenalty(es) < (s as real) + 0.5
    ensures 100.0 - TotalPenalty(es) < -0.5 ==> s == 0
  {
    var r := Round(100.0 - TotalPenalty(es));
    if r < 0 then 0 else r
  }

  /** The points a trip earns: floor((score / 100) * (distance / 10)). */
  function PointsEarned(score: int, distance: real): (p: int)
    ensures (p as real) <= (score as real / 100.0) * (distance / 10.0) < (p as real) + 1.0
  {
    ((score as real / 100.0) * (distance / 10.0)).Floor
  }

  /**
   * The scorer as the handler runs it: start at 100 and subtract each
   * event's penalty in turn, then round, clamp at 0 and derive the points.
   */
  method ComputeTripScore(events: seq<DrivingEvent>, distance: real) returns (score: int, points: int)
    ensures score == Score(events)
    ensures points == PointsEarned(score, distance)
  {
    var raw := 100.0;
    var i := 0;
    while i < |events|
      invariant 0 <= i <= |events|
      invariant raw == 100.0 - TotalPenalty(events[..i])
    {
      assert events[..i + 1][..i] == events[..i];
      raw := raw - Penalty(events[i]);
      i := i + 1;
    }
    assert events[..|events|] == events;
    var rounded := Round(raw);
    score := if 0 > rounded then 0 else rounded;
    points := ((score as real / 100.0) * (distance / 10.0)).Floor;
  }

  /** Every event whose severity is absent or non-negative. */
  predicate NonNegativeSeverities(es: seq<DrivingEvent>) {
    forall i :: 0 <= i < |es| ==> (es[i].severity.Some? ==> es[i].severity.value >= 0.0)
  }

  lemma ValidEventsHaveNonNegativeSeverities(es: seq<DrivingEvent>)
    requires ValidEvents(es)
    ensures NonNegativeSeverities(es)
  {
    forall i | 0 <= i < |es|
      ensures es[i].severity.Some? ==> es[i].severity.value >= 0.0
    {
      assert ValidEvent(es[i]);
    }
  }

  /** With non-negative severities no event adds to the score. */
  lemma {:induction false} TotalPenaltyNonNegative(es: seq<DrivingEvent>)
    requires NonNegativeSeverities(es)
    ensures TotalPenalty(es) >= 0.0
  {
    if |es| > 0 {
      var init := es[..|es| - 1];
      assert NonNegativeSeverities(init) by {
        forall i | 0 <= i < |init|
          ensures init[i].severity.Some? ==> init[i].severity.value >= 0.0
        {
          assert init[i] == es[i];
        }
      }
      TotalPenaltyNonNegative(init);
      PenaltyNonNegative(es[|es| - 1]);
    }
  }

  /** An event with a non-negative severity (or none) subtracts a non-negative amount. */
  lemma PenaltyNonNegative(e: DrivingEvent)
    requires e.severity.Some? ==> e.severity.value >= 0.0
    ensures Penalty(e) >= 0.0
  {
    var w, m := KindWeight(e.kind), Multiplier(e.severity);
    assert w >= 0.0 && m >= 0.0;
    assert Penalty(e) == w * m;
  }

  /** The score never exceeds 100 once severities are non-negative, as the schema guarantees. */
  lemma ScoreAtMost100(es: seq<DrivingEvent>)
    requires NonNegativeSeverities(es)
    ensures 0 <= Score(es) <= 100
  {
    TotalPenaltyNonNegative(es);
  }

  /** A valid trip's events always score within the schema's range [0, 100]. */
  lemma ValidEventsScoreInRange(es: seq<DrivingEvent>)
    requires ValidEvents(es)
    ensures 0 <= Score(es) <= 100
  {
    ValidEventsHaveNonNegativeSeverities(es);
    ScoreAtMost100(es);
  }

  /** The bound needs the schema: a negative severity (refused by the validators) scores above 100. */
  lemma NegativeSeverityExceeds100(loc: GeoPoint, at: Time)
    ensures Score([DrivingEvent("hard_brake", at, loc, Some(-5.0))]) == 105
  {
    var es := [DrivingEvent("hard_brake", at, loc, Some(-5.0))];
    assert es[..0] == [];
    assert TotalPenalty(es) == -5.0;
  }

  /** With no events the score is 100 and the points are floor(distance / 10). */
  lemma NoEventsScore(distance: real)
    ensures Score([]) == 100
    ensures PointsEarned(Score([]), distance) == (distance / 10.0).Floor
  {
  }

  /** An event whose type is outside the table leaves the score unchanged. */
  lemma UnrecognisedEventIgnored(es: seq<DrivingEvent>, e: DrivingEvent)
    requires ParseEventType(e.kind).None? && !InheritedName(e.kind)
    ensures TotalPenalty(es + [e]) == TotalPenalty(es)
    ensures Score(es + [e]) == Score(es)
  {
    assert (es + [e])[..|es + [e]| - 1] == es;
  }

  /** The names on which the model's lookup departs from the source never pass the schema's enum. */
  lemma ValidEventsAvoidInheritedNames(es: seq<DrivingEvent>)
    requires ValidEvents(es)
    ensures forall i :: 0 <= i < |es| ==> !InheritedName(es[i].kind)
  {
  }

  /** A missing severity counts exactly like severity 5, and so does a zero severity. */
  lemma MissingSeverityCountsAsFive(e: DrivingEvent)
    ensures Penalty(e.(severity := None)) == Penalty(e.(severity := Some(5.0)))
    ensures Penalty(e.(severity := Some(0.0))) == Penalty(e.(severity := None))
    ensures Penalty(e.(severity := None)) == KindWeight(e.kind)
  {
  }

  /** Each event subtracts exactly weight(type) * severity / 5 from the raw score. */
  lemma EventPenaltyIsWeightedSeverity(es: seq<DrivingEvent>, e: DrivingEvent, t: EventType, sev: real)
    requires e.kind == EventTypeName(t) && e.severity == Some(sev) && sev != 0.0
    ensures TotalPenalty(es + [e]) == TotalPenalty(es) + Weight(t) * sev / 5.0
  {
    EventTypeRoundTrip(e.kind, t);
    assert (es + [e])[..|es + [e]| - 1] == es;
    assert KindWeight(e.kind) == Weight(t);
    assert Multiplier(e.severity) == sev / 5.0;
    assert Penalty(e) == Weight(t) * sev / 5.0;
  }

  /** Appending an event with a non-negative severity never raises the score. */
  lemma ScoreNonIncreasing(es: seq<DrivingEvent>, e: DrivingEvent)
    requires e.severity.Some? ==> e.severity.value >= 0.0
    ensures Score(es + [e]) <= Score(es)
  {
    assert (es + [e])[..|es + [e]| - 1] == es;
    PenaltyNonNegative(e);
  }

  /** The total penalty of a concatenation is the sum of the parts' totals. */
  lemma {:induction false} TotalPenaltyAppend(a: seq<DrivingEvent>, b: seq<DrivingEvent>)
    ensures TotalPenalty(a + b) == TotalPenalty(a) + TotalPenalty(b)
    decreases |b|
  {
    if |b| == 0 {
      assert a + b == a;
    } else {
      var b' := b[..|b| - 1];
      assert (a + b)[..|a + b| - 1] == a + b';
      assert (a + b)[|a + b| - 1] == b[|b| - 1];
      TotalPenaltyAppend(a, b');
    }
  }

  /** Taking one element out of a sequence takes it out of its multiset. */
  lemma MultisetRemoveAt(b: seq<DrivingEvent>, j: nat)
    requires j < |b|
    ensures multiset(b[..j] + b[j + 1..]) == multiset(b) - multiset{b[j]}
  {
    assert b == b[..j] + [b[j]] + b[j + 1..];
  }

  lemma TotalPenaltySingle(x: DrivingEvent)
    ensures TotalPenalty([x]) == Penalty(x)
  {
    assert [x][..0] == [];
  }

  /** Taking one event out of a sequence takes its penalty out of the total. */
  lemma {:induction false} TotalPenaltyRemoveAt(b: seq<DrivingEvent>, j: nat)
    requires j < |b|
    ensures TotalPenalty(b) == TotalPenalty(b[..j] + b[j + 1..]) + Penalty(b[j])
  {
    var x, p, q := b[j], b[..j], b[j + 1..];
    assert b == p + ([x] + q);
    TotalPenaltyAppend(p, [x] + q);
    TotalPenaltyAppend([x], q);
    TotalPenaltyAppend(p, q);
    TotalPenaltySingle(x);
  }

  /** The total penalty depends only on the multiset of events, not on their order. */
  lemma {:induction false} TotalPenaltyPermutation(a: seq<DrivingEvent>, b: seq<DrivingEvent>)
    requires multiset(a) == multiset(b)
    ensures TotalPenalty(a) == TotalPenalty(b)
    decreases |a|
  {
    if |a| == 0 {
      assert |b| == |multiset(b)| == 0;
    } else {
      var x := a[|a| - 1];
      var a' := a[..|a| - 1];
      assert a == a' + [x];
      assert multiset(a') == multiset(a) - multiset{x};
      assert x in multiset(b);
      var j :| 0 <= j < |b| && b[j] == x;
      MultisetRemoveAt(b, j);
      TotalPenaltyPermutation(a', b[..j] + b[j + 1..]);
      TotalPenaltyRemoveAt(b, j);
    }
  }

  /** Reordering a trip's events does not change its score. */
  lemma ScoreOrderIndependent(a: seq<DrivingEvent>, b: seq<DrivingEvent>)
    requires multiset(a) == multiset(b)
    ensures Score(a) == Score(b)
  {
    TotalPenaltyPermutation(a, b);
  }

  /** A zero score or a zero distance earns nothing. */
  lemma PointsZero(score: int, distance: real)
    requires score == 0 || distance == 0.0
    ensures PointsEarned(score, distance) == 0
  {
  }

  /** For a non-negative distance the points are non-negative and grow with the score. */
  lemma PointsMonotoneInScore(s1: int, s2: int, distance: real)
    requires 0 <= s1 <= s2 && distance >= 0.0
    ensures 0 <= PointsEarned(s1, distance) <= PointsEarned(s2, distance)
  {
    var f := distance / 10.0;
    assert (s1 as real / 100.0) * f <= (s2 as real / 100.0) * f;
    assert 0.0 <= (s1 as real / 100.0) * f;
  }

  /** For a non-negative score the points grow with the distance. */
  lemma PointsMonotoneInDistance(score: int, d1: real, d2: real)
    requires score >= 0 && d1 <= d2
    ensures PointsEarned(score, d1) <= PointsEarned(score, d2)
  {
    var g := score as real / 100.0;
    assert g * (d1 / 10.0) <= g * (d2 / 10.0);
  }

  /** A score of at most 100 earns at most one point per 10 units of distance. */
  lemma PointsAtMostDistanceTenth(score: int, distance: real)
    requires 0 <= score <= 100 && distance >= 0.0
    ensures PointsEarned(score, distance) <= (distance / 10.0).Floor
  {
    var f := distance / 10.0;
    assert (score as real / 100.0) * f <= f;
  }

  /** Worked examples: a clean 10 km trip, a single hard brake, phone use plus speeding, rounding. */
  lemma ScoreExamples(loc: GeoPoint, at: Time)
    ensures Score([]) == 100 && PointsEarned(100, 10.0) == 1
    ensures Score([DrivingEvent("hard_brake", at, loc, Some(5.0))]) == 95
    ensures PointsEarned(95, 10.0) == 0
    ensures Score([DrivingEvent("phone_usage", at, loc, Some(5.0)),
                   DrivingEvent("speeding", at, loc, Some(5.0))]) == 75
    ensures PointsEarned(75, 100.0) == 7
    ensures Score([DrivingEvent("sharp_turn", at, loc, Some(1.0))]) == 99
    ensures Score([DrivingEvent("speeding", at, loc, None)]) == 90
  {
    var e1 := [DrivingEvent("hard_brake", at, loc, Some(5.0))];
    assert e1[..0] == [];
    var e2 := [DrivingEvent("phone_usage", at, loc, Some(5.0)), DrivingEvent("speeding", at, loc, Some(5.0))];
    assert e2[..1][..0] == [];
    assert e2[..1] == [e2[0]];
    assert TotalPenalty(e2[..1]) == 15.0;
    assert TotalPenalty(e2) == 25.0;
    var e3 := [DrivingEvent("sharp_turn", at, loc, Some(1.0))];
    assert e3[..0] == [];
    assert TotalPenalty(e3) == 1.4;
    var e4 := [DrivingEvent("speeding", at, loc, None)];
    assert e4[..0] == [];
  }
}

=== FILE: store.dfy ===
/**
 * The document store the controllers read and write, held in memory: one
 * collection per model. Trips and redemptions keep their natural
 * (insertion) order because handlers list them; users, rewards and
 * emergencies are only ever fetched by id.
 */
module Store {
  import opened Wrappers
  import opened Common
  import opened TripModel
  import RewardModel
  import RedemptionModel
  import EmergencyModel

  /** An emergency contact of a user: the sub-document id and the details submitted. */
  datatype Contact = Contact(id: Id, name: string, phone: string)

  /** The parts of a user record the controllers touch: the points balance and the emergency contacts. */
  datatype UserDoc = UserDoc(points: real, contacts: seq<Contact>)

  datatype Db = Db(
    users: map<Id, UserDoc>,
    trips: seq<Trip>,
    rewards: map<Id, RewardModel.Reward>,
    redemptions: seq<RedemptionModel.Redemption>,
    emergencies: map<Id, EmergencyModel.Emergency>)

  /** What a handler leaves behind: the store after the request and the reply sent. */
  datatype Response<T> = Response(db: Db, reply: Result<T, ApiError>)

  /** `findById` on the trip collection: the position of the first trip with the id. */
  function TripIndex(ts: seq<Trip>, id: Id): (r: Option<nat>)
    ensures r.Some? ==> r.value < |ts| && ts[r.value].id == id
    ensures r.Some? ==> forall j :: 0 <= j < r.value ==> ts[j].id != id
    ensures r.None? <==> forall j :: 0 <= j < |ts| ==> ts[j].id != id
  {
    if |ts| == 0 then None
    else if ts[0].id == id then Some(0)
    else
      match TripIndex(ts[1..], id)
      case Some(k) => Some(k + 1)
      case None => None
  }

  /** `findById` finds the first trip carrying the id. */
  lemma TripIndexFirst(ts: seq<Trip>, id: Id, i: nat)
    requires i < |ts| && ts[i].id == id
    requires forall j :: 0 <= j < i ==> ts[j].id != id
    ensures TripIndex(ts, id) == Some(i)
  {
  }


  /** The trips with the given id are at most one. */
  predicate UniqueTripIds(ts: seq<Trip>) {
    forall i, j :: 0 <= i < j < |ts| ==> ts[i].id != ts[j].id
  }

  /** Every stored trip passed the schema's validators. */
  predicate ValidTripStore(db: Db) {
    forall i :: 0 <= i < |db.trips| ==> ValidTrip(db.trips[i])
  }

  /** No user holds a negative points balance. */
  predicate BalancesNonNegative(db: Db) {
    forall u :: u in db.users ==> db.users[u].points >= 0.0
  }

  /** Every stored trip covers a non-negative distance. */
  predicate DistancesNonNegative(db: Db) {
    forall i :: 0 <= i < |db.trips| ==> db.trips[i].distance >= 0.0
  }

  /**
   * The atomic increment `$inc: { points: n }` on a user record; a missing
   * record is left missing (the update does not insert).
   */
  function IncrementPoints(db: Db, u: Id, n: real): (db': Db)
    ensures db'.users.Keys == db.users.Keys
    ensures u in db.users ==> db'.users[u].points == db.users[u].points + n
    ensures u in db.users ==> db'.users[u].contacts == db.users[u].contacts
    ensures forall v :: v in db.users && v != u ==> db'.users[v] == db.users[v]
    ensures db'.trips == db.trips && db'.rewards == db.rewards
    ensures db'.redemptions == db.redemptions && db'.emergencies == db.emergencies
  {
    if u in db.users then
      db.(users := db.users[u := db.users[u].(points := db.users[u].points + n)])
    else
      db
  }

  /** Removes the element at position `i`, keeping the others in order. */
  function RemoveAt<T>(s: seq<T>, i: nat): (r: seq<T>)
    requires i < |s|
    ensures |r| == |s| - 1
    ensures forall j :: 0 <= j < i ==> r[j] == s[j]
    ensures forall j :: i <= j < |r| ==> r[j] == s[j + 1]
  {
    s[..i] + s[i + 1..]
  }
}

=== FILE: trip_model.dfy ===
/**
 * The Trip document: a recorded drive with its driving events, the safety
 * score computed from them and the points it earned.
 */
module TripModel {
  import opened Wrappers
  import opened Common

  /** The five kinds of driving event the schema admits. */
  datatype EventType = HardBrake | RapidAcceleration | Speeding | PhoneUsage | SharpTurn

  /** The name under which each event type is stored. */
  function EventTypeName(t: EventType): string {
    match t
    case HardBrake => "hard_brake"
    case RapidAcceleration => "rapid_acceleration"
    case Speeding => "speeding"
    case PhoneUsage => "phone_usage"
    case SharpTurn => "sharp_turn"
  }

  /** Reads a stored event type; `None` for a string outside the enum. */
  function ParseEventType(s: string): (r: Option<EventType>)
    ensures r.Some? ==> EventTypeName(r.value) == s
    ensures r.None? ==> forall t: EventType :: EventTypeName(t) != s
  {
    if s == "hard_brake" then Some(HardBrake)
    else if s == "rapid_acceleration" then Some(RapidAcceleration)
    else if s == "speeding" then Some(Speeding)
    else if s == "phone_usage" then Some(PhoneUsage)
    else if s == "sharp_turn" then Some(SharpTurn)
    else None
  }

  /** Names and parsing are inverse: a string parses to `t` exactly when it is `t`'s name. */
  lemma EventTypeRoundTrip(s: string, t: EventType)
    ensures ParseEventType(s) == Some(t) <==> s == EventTypeName(t)
  {
    if s == EventTypeName(t) {
      match t
      case HardBrake =>
      case RapidAcceleration =>
      case Speeding =>
      case PhoneUsage =>
      case SharpTurn =>
    }
  }

  /**
   * One driving event. `kind` is kept as the stored string so that the
   * scorer's treatment of an unrecognised type can be stated; `severity`
   * is an optional Number.
   */
  datatype DrivingEvent = DrivingEvent(
    kind: string,
    timestamp: Time,
    location: GeoPoint,
    severity: Option<real>)

  /** Severity is optional and, when present, a number in [1, 5] (not necessarily whole). */
  predicate SeverityInRange(s: Option<real>) {
    s.Some? ==> 1.0 <= s.value <= 5.0
  }

  /** The event schema: a type from the enum, a 'Point' location, a severity in range. */
  predicate ValidEvent(e: DrivingEvent) {
    && ParseEventType(e.kind).Some?
    && ValidPoint(e.location)
    && SeverityInRange(e.severity)
  }

  predicate ValidEvents(es: seq<DrivingEvent>) {
    forall i :: 0 <= i < |es| ==> ValidEvent(es[i])
  }

  /** The trip score is optional and, when present, lies in [0, 100]. */
  predicate ScoreInRange(s: Option<real>) {
    s.Some? ==> 0.0 <= s.value <= 100.0
  }

  /**
   * A stored trip. `user`, `startTime`, `startLocation` and `distance` are
   * required; `endTime`, `endLocation`, `duration` and `score` are optional.
   * `distance` has no lower bound in the schema.
   */
  datatype Trip = Trip(
    id: Id,
    user: Id,
    startTime: Time,
    endTime: Option<Time>,
    startLocation: GeoPoint,
    endLocation: Option<GeoPoint>,
    distance: real,
    duration: Option<real>,
    events: seq<DrivingEvent>,
    score: Option<real>,
    pointsEarned: real,
    createdAt: Time)

  /** The validators of the trip schema, on a document whose required fields are present. */
  predicate ValidTrip(t: Trip) {
    && ValidPoint(t.startLocation)
    && ValidOptionalPoint(t.endLocation)
    && ValidEvents(t.events)
    && ScoreInRange(t.score)
  }

  /**
   * What the store's 2dsphere indexes on the start and end coordinates
   * accept (an omitted array defaults to empty and is skipped).
   */
  predicate TripIndexable(t: Trip) {
    && IndexableCoordinates(t.startLocation.coordinates)
    && (t.endLocation.Some? ==> IndexableCoordinates(t.endLocation.value.coordinates))
  }

  /** A trip as submitted for creation: any field may be missing. */
  datatype TripDraft = TripDraft(
    user: Option<Id>,
    startTime: Option<Time>,
    endTime: Option<Time>,
    startLocation: Option<GeoPoint>,
    endLocation: Option<GeoPoint>,
    distance: Option<real>,
    duration: Option<real>,
    events: seq<DrivingEvent>,
    score: Option<real>,
    pointsEarned: Option<real>,
    createdAt: Option<Time>)

  /**
   * Creates a trip document from a draft: the required fields must be
   * present and every validator must pass; `pointsEarned` defaults to 0
   * and `createdAt` to the creation time. Every field the draft carries
   * is stored as given.
   */
  function NewTrip(id: Id, d: TripDraft, now: Time): (r: Result<Trip, ApiError>)
    ensures r.Ok? <==>
      && d.user.Some? && d.startTime.Some? && d.startLocation.Some? && d.distance.Some?
      && ValidPoint(d.startLocation.value)
      && ValidOptionalPoint(d.endLocation)
      && ValidEvents(d.events)
      && ScoreInRange(d.score)
    ensures r.Err? ==> r.error == ValidationFailed
    ensures r.Ok? ==>
      && ValidTrip(r.value)
      && r.value.id == id
      && r.value.user == d.user.value
      && r.value.startTime == d.startTime.value
      && r.value.endTime == d.endTime
      && r.value.startLocation == d.startLocation.value
      && r.value.endLocation == d.endLocation
      && r.value.distance == d.distance.value
      && r.value.duration == d.duration
      && r.value.events == d.events
      && r.value.score == d.score
      && r.value.pointsEarned == (if d.pointsEarned.Some? then d.pointsEarned.value else 0.0)
      && r.value.createdAt == (if d.createdAt.Some? then d.createdAt.value else now)
  {
    if d.user.None? || d.startTime.None? || d.startLocation.None? || d.distance.None? then
      Err(ValidationFailed)
    else
      var t := Trip(id, d.user.value, d.startTime.value, d.endTime, d.startLocation.value,
                    d.endLocation, d.distance.value, d.duration, d.events, d.score,
                    d.pointsEarned.GetOr(0.0), d.createdAt.GetOr(now));
      if ValidTrip(t) then Ok(t) else Err(ValidationFailed)
  }
}

=== FILE: trips.dfy ===
/**
 * The trip controller: the single-trip handlers with their shared
 * not-found-then-not-authorised gate, trip creation, and the scoring
 * handler that stores the score and credits the caller's balance.
 */
module Trips {
  import opened Wrappers
  import opened Common
  import opened TripModel
  import opened Scoring
  import opened Store

  /**
   * The gate of every single-trip handler: 404 when no trip has the id,
   * then 401 unless the caller owns the trip or is an administrator;
   * otherwise the trip's position in the collection.
   */
  function Locate(db: Db, caller: Caller, id: Id): (r: Result<nat, ApiError>)
    ensures r == Err(NotFound) <==> forall j :: 0 <= j < |db.trips| ==> db.trips[j].id != id
    ensures r.Ok? ==> r.value < |db.trips| && db.trips[r.value].id == id
    ensures r.Ok? ==> forall j :: 0 <= j < r.value ==> db.trips[j].id != id
    ensures r.Ok? ==> OwnerOrAdmin(db.trips[r.value].user, caller)
    ensures r.Err? ==> r.error == NotFound || r.error == Unauthorized
    ensures r == Err(Unauthorized) <==>
      TripIndex(db.trips, id).Some? && !OwnerOrAdmin(db.trips[TripIndex(db.trips, id).value].user, caller)
  {
    match TripIndex(db.trips, id)
    case None => Err(NotFound)
    case Some(i) =>
      if OwnerOrAdmin(db.trips[i].user, caller) then Ok(i) else Err(Unauthorized)
  }

  /** The gate depends on the caller only through ownership: an administrator is never refused with 401. */
  lemma AdminNeverUnauthorized(db: Db, caller: Caller, id: Id)
    requires IsAdmin(caller)
    ensures Locate(db, caller, id) != Err(Unauthorized)
  {
  }

  /** The owner of the first trip with the id always passes the gate. */
  lemma OwnerPasses(db: Db, caller: Caller, id: Id, i: nat)
    requires i < |db.trips| && db.trips[i].id == id && db.trips[i].user == caller.id
    requires forall j :: 0 <= j < i ==> db.trips[j].id != id
    ensures Locate(db, caller, id) == Ok(i)
  {
    TripIndexFirst(db.trips, id, i);
  }

  /** `GET /trips/:id`: the trip, behind the gate. */
  function GetTrip(db: Db, caller: Caller, id: Id): (r: Result<Trip, ApiError>)
    ensures r.Err? <==> Locate(db, caller, id).Err?
    ensures r.Err? ==> r.error == Locate(db, caller, id).error
    ensures r.Ok? ==> r.value.id == id && r.value in db.trips && OwnerOrAdmin(r.value.user, caller)
    ensures r.Ok? ==> r.value == db.trips[Locate(db, caller, id).value]
  {
    var i :- Locate(db, caller, id);
    Ok(db.trips[i])
  }

  /** The body of `GET /trips/:id/events`: the events and their count. */
  datatype EventList = EventList(count: nat, events: seq<DrivingEvent>)

  /** `GET /trips/:id/events`: the trip's events with `count` equal to their number, behind the gate. */
  function GetTripEvents(db: Db, caller: Caller, id: Id): (r: Result<EventList, ApiError>)
    ensures r.Err? <==> Locate(db, caller, id).Err?
    ensures r.Err? ==> r.error == Locate(db, caller, id).error
    ensures r.Ok? ==> r.value.count == |r.value.events|
    ensures r.Ok? ==> r.value.events == db.trips[Locate(db, caller, id).value].events
  {
    var i :- Locate(db, caller, id);
    Ok(EventList(|db.trips[i].events|, db.trips[i].events))
  }

  /** The fields a trip update may set (`$set` semantics): a present field replaces the stored one. */
  datatype TripUpdate = TripUpdate(
    user: Option<Id>,
    startTime: Option<Time>,
    endTime: Option<Time>,
    startLocation: Option<GeoPoint>,
    endLocation: Option<GeoPoint>,
    distance: Option<real>,
    duration: Option<real>,
    events: Option<seq<DrivingEvent>>,
    score: Option<real>,
    pointsEarned: Option<real>,
    createdAt: Option<Time>)

  /** The update that sets nothing. */
  const NoTripUpdate := TripUpdate(None, None, None, None, None, None, None, None, None, None, None)

  /** `$set` of the fields present in the update onto the stored trip. */
  function ApplyTripUpdate(t: Trip, u: TripUpdate): (t': Trip)
    ensures t'.id == t.id
    ensures u == NoTripUpdate ==> t' == t
    ensures Sets(u.user, t.user, t'.user)
    ensures Sets(u.startTime, t.startTime, t'.startTime)
    ensures SetsOptional(u.endTime, t.endTime, t'.endTime)
    ensures Sets(u.startLocation, t.startLocation, t'.startLocation)
    ensures SetsOptional(u.endLocation, t.endLocation, t'.endLocation)
    ensures Sets(u.distance, t.distance, t'.distance)
    ensures SetsOptional(u.duration, t.duration, t'.duration)
    ensures Sets(u.events, t.events, t'.events)
    ensures SetsOptional(u.score, t.score, t'.score)
    ensures Sets(u.pointsEarned, t.pointsEarned, t'.pointsEarned)
    ensures Sets(u.createdAt, t.createdAt, t'.createdAt)
  {
    t.(user := u.user.GetOr(t.user),
       startTime := u.startTime.GetOr(t.startTime),
       endTime := if u.endTime.Some? then u.endTime else t.endTime,
       startLocation := u.startLocation.GetOr(t.startLocation),
       endLocation := if u.endLocation.Some? then u.endLocation else t.endLocation,
       distance := u.distance.GetOr(t.distance),
       duration := if u.duration.Some? then u.duration else t.duration,
       events := u.events.GetOr(t.events),
       score := if u.score.Some? then u.score else t.score,
       pointsEarned := u.pointsEarned.GetOr(t.pointsEarned),
       createdAt := u.createdAt.GetOr(t.createdAt))
  }

  /**
   * `PUT /trips/:id`: behind the gate, applies the update with the
   * validators on; a refused update leaves the store unchanged. An update
   * that passes the validators but not the location indexes is refused by
   * the store, a fault. Nothing stops the update from moving the trip to
   * another owner.
   */
  function UpdateTrip(db: Db, caller: Caller, id: Id, u: TripUpdate): (r: Response<Trip>)
    ensures Locate(db, caller, id).Err? ==> r == Response(db, Err(Locate(db, caller, id).error))
    ensures r.reply.Err? ==> r.db == db
    ensures r.reply.Ok? ==>
      var i := Locate(db, caller, id).value;
      && r.reply.value == ApplyTripUpdate(db.trips[i], u)
      && ValidTrip(r.reply.value)
      && TripIndexable(r.reply.value)
      && r.db == db.(trips := db.trips[i := r.reply.value])
    ensures Locate(db, caller, id).Ok? ==>
      var t' := ApplyTripUpdate(db.trips[Locate(db, caller, id).value], u);
      && (r.reply.Ok? <==> ValidTrip(t') && TripIndexable(t'))
      && (r.reply == Err(ValidationFailed) <==> !ValidTrip(t'))
      && (r.reply == Err(ServerFault) <==> ValidTrip(t') && !TripIndexable(t'))
  {
    match Locate(db, caller, id)
    case Err(e) => Response(db, Err(e))
    case Ok(i) =>
      var t' := ApplyTripUpdate(db.trips[i], u);
      if !ValidTrip(t') then Response(db, Err(ValidationFailed))
      else if !TripIndexable(t') then Response(db, Err(ServerFault))
      else Response(db.(trips := db.trips[i := t']), Ok(t'))
  }

  /** `DELETE /trips/:id`: behind the gate, removes the trip and keeps the others in order. */
  function DeleteTrip(db: Db, caller: Caller, id: Id): (r: Response<()>)
    ensures Locate(db, caller, id).Err? ==> r == Response(db, Err(Locate(db, caller, id).error))
    ensures Locate(db, caller, id).Ok? ==> r.reply.Ok?
    ensures r.reply.Ok? ==>
      && |r.db.trips| == |db.trips| - 1
      && multiset(r.db.trips) == multiset(db.trips) - multiset{db.trips[Locate(db, caller, id).value]}
      && r.db == db.(trips := RemoveAt(db.trips, Locate(db, caller, id).value))
    ensures r.reply.Ok? && UniqueTripIds(db.trips) ==>
      forall j :: 0 <= j < |r.db.trips| ==> r.db.trips[j].id != id
  {
    match Locate(db, caller, id)
    case Err(e) => Response(db, Err(e))
    case Ok(i) =>
      assert db.trips == db.trips[..i] + [db.trips[i]] + db.trips[i + 1..];
      Response(db.(trips := RemoveAt(db.trips, i)), Ok(()))
  }

  /**
   * `POST /trips`: the owner is always the caller, whatever the body says;
   * the schema's defaults and validators apply, and then the store's
   * location indexes, whose refusal is a fault. `newId` is the fresh id
   * the store assigns.
   */
  function CreateTrip(db: Db, caller: Caller, d: TripDraft, newId: Id, now: Time): (r: Response<Trip>)
    ensures r.reply.Err? ==> r.db == db
    ensures r.reply == Err(ValidationFailed) <==> NewTrip(newId, d.(user := Some(caller.id)), now).Err?
    ensures r.reply == Err(ServerFault) <==>
      NewTrip(newId, d.(user := Some(caller.id)), now).Ok? && !TripIndexable(NewTrip(newId, d.(user := Some(caller.id)), now).value)
    ensures r.reply.Err? ==> r.reply.error == ValidationFailed || r.reply.error == ServerFault
    ensures r.reply.Ok? ==>
      && r.reply.value.user == caller.id
      && r.reply.value.id == newId
      && NewTrip(newId, d.(user := Some(caller.id)), now) == Ok(r.reply.value)
      && r.reply.value.startTime == d.startTime.value
      && r.reply.value.endTime == d.endTime
      && r.reply.value.startLocation == d.startLocation.value
      && r.reply.value.endLocation == d.endLocation
      && r.reply.value.distance == d.distance.value
      && r.reply.value.duration == d.duration
      && r.reply.value.events == d.events
      && r.reply.value.score == d.score
      && r.reply.value.pointsEarned == d.pointsEarned.GetOr(0.0)
      && r.reply.value.createdAt == d.createdAt.GetOr(now)
      && ValidTrip(r.reply.value)
      && TripIndexable(r.reply.value)
      && r.db == db.(trips := db.trips + [r.reply.value])
    ensures r.reply.Ok? <==>
      && d.startTime.Some? && d.startLocation.Some? && d.distance.Some?
      && ValidPoint(d.startLocation.value) && ValidOptionalPoint(d.endLocation)
      && ValidEvents(d.events) && ScoreInRange(d.score)
      && IndexableCoordinates(d.startLocation.value.coordinates)
      && (d.endLocation.Some? ==> IndexableCoordinates(d.endLocation.value.coordinates))
  {
    match NewTrip(newId, d.(user := Some(caller.id)), now)
    case Err(e) => Response(db, Err(e))
    case Ok(t) =>
      if TripIndexable(t) then Response(db.(trips := db.trips + [t]), Ok(t))
      else Response(db, Err(ServerFault))
  }

  /** The user field of the body never matters to trip creation. */
  lemma CreateTripIgnoresBodyUser(db: Db, caller: Caller, d: TripDraft, other: Option<Id>, newId: Id, now: Time)
    ensures CreateTrip(db, caller, d.(user := other), newId, now) == CreateTrip(db, caller, d, newId, now)
  {
    assert d.(user := other).(user := Some(caller.id)) == d.(user := Some(caller.id));
  }

  /** The body of the scoring reply. */
  datatype ScoreReport = ScoreReport(score: int, pointsEarned: int, distance: real, eventCount: nat)

  /** The trip as stored after scoring: score and points replaced, nothing else touched. */
  function Scored(t: Trip): (t': Trip)
    ensures t'.score == Some(Score(t.events) as real)
    ensures t'.pointsEarned == PointsEarned(Score(t.events), t.distance) as real
    ensures t'.(score := t.score, pointsEarned := t.pointsEarned) == t
  {
    var s := Score(t.events);
    t.(score := Some(s as real), pointsEarned := PointsEarned(s, t.distance) as real)
  }

  /**
   * `GET /trips/:id/score`: behind the gate, scores the trip's events,
   * stores score and points on the trip, and credits the points to the
   * CALLER's balance (not the trip owner's). Saving runs the validators,
   * so a score outside [0, 100] is refused and nothing changes.
   */
  function CalculateTripScore(db: Db, caller: Caller, id: Id): (r: Response<ScoreReport>)
    ensures Locate(db, caller, id).Err? ==> r == Response(db, Err(Locate(db, caller, id).error))
    ensures Locate(db, caller, id).Ok? && r.reply.Err? ==> r.reply.error == ValidationFailed
    ensures r.reply.Err? ==> r.db == db
    ensures r.reply.Ok? ==>
      var i := Locate(db, caller, id).value;
      var t := db.trips[i];
      && r.reply.value.score == Score(t.events)
      && r.reply.value.pointsEarned == PointsEarned(Score(t.events), t.distance)
      && r.reply.value.distance == t.distance
      && r.reply.value.eventCount == |t.events|
      && |r.db.trips| == |db.trips|
      && r.db.trips[i] == Scored(t)
      && (forall j :: 0 <= j < |db.trips| && j != i ==> r.db.trips[j] == db.trips[j])
      && r.db.users.Keys == db.users.Keys
      && (caller.id in db.users ==>
            r.db.users[caller.id].points == db.users[caller.id].points + r.reply.value.pointsEarned as real)
      && (forall v :: v in db.users && v != caller.id ==> r.db.users[v] == db.users[v])
      && r.db.rewards == db.rewards && r.db.redemptions == db.redemptions
      && r.db.emergencies == db.emergencies
  {
    match Locate(db, caller, id)
    case Err(e) => Response(db, Err(e))
    case Ok(i) =>
      var t := db.trips[i];
      var t' := Scored(t);
      if !ValidTrip(t') then Response(db, Err(ValidationFailed))
      else
        var p := PointsEarned(Score(t.events), t.distance);
        var db' := IncrementPoints(db.(trips := db.trips[i := t']), caller.id, p as real);
        Response(db', Ok(ScoreReport(Score(t.events), p, t.distance, |t.events|)))
  }

  /** A valid stored trip is never refused on save: its score lies in [0, 100]. */
  lemma ScoringValidTripSucceeds(db: Db, caller: Caller, id: Id)
    requires ValidTripStore(db)
    requires Locate(db, caller, id).Ok?
    ensures CalculateTripScore(db, caller, id).reply.Ok?
    ensures ValidTripStore(CalculateTripScore(db, caller, id).db)
  {
    var i := Locate(db, caller, id).value;
    var t := db.trips[i];
    assert ValidTrip(t);
    ValidEventsScoreInRange(t.events);
    var r := CalculateTripScore(db, caller, id);
    forall j | 0 <= j < |r.db.trips|
      ensures ValidTrip(r.db.trips[j])
    {
      if j != i {
        assert ValidTrip(db.trips[j]);
      }
    }
  }

  /**
   * Nothing guards against scoring a trip twice: a second request
   * recomputes the same score and points and credits the caller again.
   */
  lemma ScoringTwiceCreditsTwice(db: Db, caller: Caller, id: Id)
    requires CalculateTripScore(db, caller, id).reply.Ok?
    requires caller.id in db.users
    ensures
      var r1 := CalculateTripScore(db, caller, id);
      var r2 := CalculateTripScore(r1.db, caller, id);
      && r2.reply == r1.reply
      && r2.db.users[caller.id].points
           == db.users[caller.id].points + 2.0 * (r1.reply.value.pointsEarned as real)
  {
    var r1 := CalculateTripScore(db, caller, id);
    var i := Locate(db, caller, id).value;
    var t := db.trips[i];
    var ts := r1.db.trips;
    assert ts[i].id == id && ts[i].user == t.user;
    assert forall j :: 0 <= j < i ==> ts[j].id != id;
    TripIndexFirst(ts, id, i);
    assert Locate(r1.db, caller, id) == Ok(i);
    assert ts[i].events == t.events && ts[i].distance == t.distance;
  }

  /**
   * `CalculateTripScore` as written: the trip is saved with its score and
   * points, then the balance update names `User`, which the controller
   * never imports, so the request faults and no points are credited.
   */
  function CalculateTripScoreAsWritten(db: Db, caller: Caller, id: Id): (r: Response<ScoreReport>)
    ensures r.reply.Err?
    ensures r.db.users == db.users
    ensures Locate(db, caller, id).Err? ==> r == Response(db, Err(Locate(db, caller, id).error))
  {
    match Locate(db, caller, id)
    case Err(e) => Response(db, Err(e))
    case Ok(i) =>
      var t' := Scored(db.trips[i]);
      if !ValidTrip(t') then Response(db, Err(ValidationFailed))
      else Response(db.(trips := db.trips[i := t']), Err(ServerFault))
  }

  /**
   * Wherever the intended handler scores a trip and credits its points,
   * the handler as written stores the same trip but faults and credits
   * nothing.
   */
  lemma ScoringAsWrittenNeverCredits(db: Db, caller: Caller, id: Id)
    requires CalculateTripScore(db, caller, id).reply.Ok?
    ensures CalculateTripScoreAsWritten(db, caller, id).reply == Err(ServerFault)
    ensures CalculateTripScoreAsWritten(db, caller, id).db.trips == CalculateTripScore(db, caller, id).db.trips
    ensures CalculateTripScoreAsWritten(db, caller, id).db.users == db.users
  {
  }
}

=== FILE: users.dfy ===
/**
 * The user controller: the emergency-contact list operations, the single
 * user lookup, and the self-or-admin listings of a user's trips and
 * reward redemptions.
 */
module Users {
  import opened Wrappers
  import opened Common
  import opened TripModel
  import opened RedemptionModel
  import opened Store

  /** `GET /users/:id`: the user record, or 404. No role is checked. */
  function GetUser(db: Db, id: Id): (r: Result<UserDoc, ApiError>)
    ensures r.Ok? <==> id in db.users
    ensures r.Ok? ==> r.value == db.users[id]
    ensures r.Err? ==> r.error == NotFound
  {
    if id in db.users then Ok(db.users[id]) else Err(NotFound)
  }

  // ----- Emergency contacts -----

  /** The contacts left after `$pull: { _id: id }`: every contact with that id removed, the rest in order. */
  function WithoutContact(cs: seq<Contact>, id: Id): (r: seq<Contact>)
    ensures |r| <= |cs|
    ensures forall c :: c in r <==> c in cs && c.id != id
    ensures (forall k :: 0 <= k < |cs| ==> cs[k].id != id) ==> r == cs
  {
    if |cs| == 0 then []
    else if cs[0].id == id then WithoutContact(cs[1..], id)
    else [cs[0]] + WithoutContact(cs[1..], id)
  }

  /** Removal works piecewise, so the contacts kept stay in their original order. */
  lemma {:induction false} WithoutContactAppend(a: seq<Contact>, b: seq<Contact>, id: Id)
    ensures WithoutContact(a + b, id) == WithoutContact(a, id) + WithoutContact(b, id)
  {
    if |a| == 0 {
      assert a + b == b;
    } else {
      assert (a + b)[1..] == a[1..] + b;
      WithoutContactAppend(a[1..], b, id);
    }
  }

  /** Adding a contact with an id no other contact has and then removing that id restores the list. */
  lemma {:induction false} AddThenRemoveRestores(cs: seq<Contact>, c: Contact)
    requires forall k :: 0 <= k < |cs| ==> cs[k].id != c.id
    ensures WithoutContact(cs + [c], c.id) == cs
  {
    WithoutContactAppend(cs, [c], c.id);
    assert [c][1..] == [];
  }

  /**
   * `POST /users/:id/contacts`: appends the submitted contact (carrying
   * the sub-document id it was given) as the last contact and replies
   * with the new list. No ownership is checked; a missing user makes the
   * reply fault.
   */
  function AddEmergencyContact(db: Db, userId: Id, c: Contact): (r: Response<seq<Contact>>)
    ensures userId !in db.users ==> r == Response(db, Err(ServerFault))
    ensures userId in db.users ==>
      var before := db.users[userId].contacts;
      && r.reply.Ok?
      && |r.reply.value| == |before| + 1
      && r.reply.value[..|before|] == before
      && r.reply.value[|before|] == c
      && r.db == db.(users := db.users[userId := db.users[userId].(contacts := r.reply.value)])
  {
    if userId !in db.users then Response(db, Err(ServerFault))
    else
      var cs := db.users[userId].contacts + [c];
      Response(db.(users := db.users[userId := db.users[userId].(contacts := cs)]), Ok(cs))
  }

  /**
   * `DELETE /users/:id/contacts`: removes every contact whose id is
   * `contactId` and replies with the rest. An unknown id changes nothing;
   * a missing user makes the reply fault.
   */
  function RemoveEmergencyContact(db: Db, userId: Id, contactId: Id): (r: Response<seq<Contact>>)
    ensures userId !in db.users ==> r == Response(db, Err(ServerFault))
    ensures userId in db.users ==>
      var before := db.users[userId].contacts;
      && r.reply.Ok?
      && (forall c :: c in r.reply.value <==> c in before && c.id != contactId)
      && r.reply.value == WithoutContact(before, contactId)
      && r.db == db.(users := db.users[userId := db.users[userId].(contacts := r.reply.value)])
    ensures userId in db.users && (forall k :: 0 <= k < |db.users[userId].contacts| ==> db.users[userId].contacts[k].id != contactId)
      ==> r.reply == Ok(db.users[userId].contacts)
  {
    if userId !in db.users then Response(db, Err(ServerFault))
    else
      var cs := WithoutContact(db.users[userId].contacts, contactId);
      Response(db.(users := db.users[userId := db.users[userId].(contacts := cs)]), Ok(cs))
  }

  /** Through the handlers: adding a fresh contact and removing it again leaves the user's contacts as they were. */
  lemma AddThenRemoveContactHandlers(db: Db, userId: Id, c: Contact)
    requires userId in db.users
    requires forall k :: 0 <= k < |db.users[userId].contacts| ==> db.users[userId].contacts[k].id != c.id
    ensures
      var r := RemoveEmergencyContact(AddEmergencyContact(db, userId, c).db, userId, c.id);
      r.reply == Ok(db.users[userId].contacts) && r.db == db
  {
    AddThenRemoveRestores(db.users[userId].contacts, c);
    var r := RemoveEmergencyContact(AddEmergencyContact(db, userId, c).db, userId, c.id);
    assert r.db.users == db.users;
  }

  // ----- Per-user listings -----

  /** A listing reply: the documents and their count. */
  datatype Listing<T> = Listing(count: nat, data: seq<T>)

  /** `Trip.find({ user })`: the trips of one owner, in collection order. */
  function TripsOf(ts: seq<Trip>, u: Id): (r: seq<Trip>)
    ensures forall t :: t in r <==> t in ts && t.user == u
    ensures forall t :: multiset(r)[t] == if t.user == u then multiset(ts)[t] else 0
  {
    if |ts| == 0 then []
    else
      assert ts == [ts[0]] + ts[1..];
      (if ts[0].user == u then [ts[0]] else []) + TripsOf(ts[1..], u)
  }

  /** The selection keeps collection order: it works piecewise over a split of the collection. */
  lemma {:induction false} TripsOfAppend(a: seq<Trip>, b: seq<Trip>, u: Id)
    ensures TripsOf(a + b, u) == TripsOf(a, u) + TripsOf(b, u)
  {
    if |a| == 0 {
      assert a + b == b;
    } else {
      assert (a + b)[1..] == a[1..] + b;
      TripsOfAppend(a[1..], b, u);
    }
  }

  /**
   * `GET /users/:id/trips`: 403 unless the caller is the target or an
   * administrator; otherwise exactly the target's trips, with `count`
   * equal to their number.
   */
  function GetUserTrips(db: Db, caller: Caller, target: Id): (r: Result<Listing<Trip>, ApiError>)
    ensures r.Ok? <==> SelfOrAdmin(target, caller)
    ensures r.Err? ==> r.error == Forbidden
    ensures r.Ok? ==> r.value.count == |r.value.data|
    ensures r.Ok? ==> forall t :: t in r.value.data <==> t in db.trips && t.user == target
    ensures r.Ok? ==> forall t :: multiset(r.value.data)[t] == if t.user == target then multiset(db.trips)[t] else 0
    ensures r.Ok? ==> r.value.data == TripsOf(db.trips, target)
  {
    if !SelfOrAdmin(target, caller) then Err(Forbidden)
    else
      var ts := TripsOf(db.trips, target);
      Ok(Listing(|ts|, ts))
  }

  /** `GetUserTrips` as written: `Trip` is never imported, so every authorised request faults. */
  function GetUserTripsAsWritten(db: Db, caller: Caller, target: Id): (r: Result<Listing<Trip>, ApiError>)
    ensures r.Err?
    ensures r.error == Forbidden <==> !SelfOrAdmin(target, caller)
  {
    if !SelfOrAdmin(target, caller) then Err(Forbidden) else Err(ServerFault)
  }

  /** The missing import turns every answer the listing should give into a fault. */
  lemma UserTripsAsWrittenFaults(db: Db, caller: Caller, target: Id)
    requires SelfOrAdmin(target, caller)
    ensures GetUserTripsAsWritten(db, caller, target) == Err(ServerFault)
    ensures GetUserTrips(db, caller, target).Ok?
  {
  }

  /** Newest first: `redeemedAt` never increases along the sequence. */
  predicate NewestFirst(s: seq<Redemption>) {
    forall i, j :: 0 <= i < j < |s| ==> s[i].redeemedAt >= s[j].redeemedAt
  }

  /** Inserts a redemption into a newest-first sequence. */
  function InsertNewestFirst(x: Redemption, s: seq<Redemption>): (r: seq<Redemption>)
    requires NewestFirst(s)
    ensures NewestFirst(r)
    ensures multiset(r) == multiset(s) + multiset{x}
    ensures |r| == |s| + 1
    ensures r[0] == x || (|s| > 0 && r[0] == s[0])
  {
    if |s| == 0 then [x]
    else if x.redeemedAt >= s[0].redeemedAt then [x] + s
    else
      var rest := InsertNewestFirst(x, s[1..]);
      assert s == [s[0]] + s[1..];
      assert s[0].redeemedAt >= rest[0].redeemedAt;
      [s[0]] + rest
  }

  /** `.sort('-redeemedAt')`: the same redemptions, newest first. */
  function SortNewestFirst(s: seq<Redemption>): (r: seq<Redemption>)
    ensures NewestFirst(r)
    ensures multiset(r) == multiset(s)
  {
    if |s| == 0 then []
    else
      assert s == [s[0]] + s[1..];
      InsertNewestFirst(s[0], SortNewestFirst(s[1..]))
  }

  /** `Redemption.find({ user })`: the redemptions of one user, in collection order. */
  function RedemptionsOf(rs: seq<Redemption>, u: Id): (r: seq<Redemption>)
    ensures forall x :: multiset(r)[x] == if x.user == u then multiset(rs)[x] else 0
  {
    if |rs| == 0 then []
    else
      assert rs == [rs[0]] + rs[1..];
      (if rs[0].user == u then [rs[0]] else []) + RedemptionsOf(rs[1..], u)
  }

  /**
   * `GET /users/:id/rewards`: 403 unless the caller is the target or an
   * administrator; otherwise the target's redemptions, newest first, with
   * `count` equal to their number.
   */
  function GetUserRewards(db: Db, caller: Caller, target: Id): (r: Result<Listing<Redemption>, ApiError>)
    ensures r.Ok? <==> SelfOrAdmin(target, caller)
    ensures r.Err? ==> r.error == Forbidden
    ensures r.Ok? ==> r.value.count == |r.value.data|
    ensures r.Ok? ==> NewestFirst(r.value.data)
    ensures r.Ok? ==> forall x :: multiset(r.value.data)[x] == if x.user == target then multiset(db.redemptions)[x] else 0
  {
    if !SelfOrAdmin(target, caller) then Err(Forbidden)
    else
      var rs := SortNewestFirst(RedemptionsOf(db.redemptions, target));
      Ok(Listing(|rs|, rs))
  }

  /** `GetUserRewards` as written: `Redemption` is never imported, so every authorised request faults. */
  function GetUserRewardsAsWritten(db: Db, caller: Caller, target: Id): (r: Result<Listing<Redemption>, ApiError>)
    ensures r.Err?
    ensures r.error == Forbidden <==> !SelfOrAdmin(target, caller)
  {
    if !SelfOrAdmin(target, caller) then Err(Forbidden) else Err(ServerFault)
  }

  /** The missing import turns every answer the listing should give into a fault. */
  lemma UserRewardsAsWrittenFaults(db: Db, caller: Caller, target: Id)
    requires SelfOrAdmin(target, caller)
    ensures GetUserRewardsAsWritten(db, caller, target) == Err(ServerFault)
    ensures GetUserRewards(db, caller, target).Ok?
  {
  }
}

=== FILE: wrappers.dfy ===
/** Option and Result, the failure-carrying values every handler returns. */
module Wrappers {

  datatype Option<+T> = None | Some(value: T) {

    /** The wrapped value, or `default` when there is none. */
    function GetOr(default: T): T {
      match this
      case Some(v) => v
      case None => default
    }
  }

  datatype Result<+T, +E> = Ok(value: T) | Err(error: E) {

    predicate IsFailure() {
      Err?
    }

    function PropagateFailure<U>(): Result<U, E>
      requires Err?
    {
      Err(error)
    }

    function Extract(): T
      requires Ok?
    {
      value
    }
  }
}
